=== FILE: README.md ===
# Roundcube `filters` plugin: a Dafny model of the triage engine

The `filters` plugin for the Roundcube webmail client moves incoming mail
into folders. It uses rules that the user stores in their preferences. Each
rule has these parts:
- a header field (`from`, `to`, `cc`, `subject`, or a configured spam
  header such as `X-Spam-Flag`);
- a search text;
- a source folder and a destination folder;
- a scope (`all`, `unread` or `isread`);
- an optional priority flag;
- an optional mark (`markread` or `markunread`).

This project models the server side of the plugin, `filters.php`:

- **Index build** (`filters_checkmsg`). When a mailbox is listed, the stored
  rules that apply to the open mailbox are compiled into an index. The index
  maps field → search text → `"dest#scope#priority#mark"`.
  Module `RuleIndex`; method `Filters.FilterPass.BuildIndex`.
- **Per-message evaluation** (`filters_search`). Each listed message is
  scanned against the index, field by field. The first match wins, unless a
  priority match comes along, which wins and stops the scan. The winner's
  scope then decides whether the message is taken at all. Taken messages have
  their uid recorded under the destination, and a SEEN/UNSEEN flag is set
  when the mark asks for one.
  Modules `Evaluator` and `Batch`; methods `Winning`, `Search`, `Accept`
  and `SearchAll` of `Filters.FilterPass`.
- **Batch move** (`filters_checkmsg`). The recorded uids are moved with one
  storage call per destination, in first-seen order, from the open mailbox.
  `Filters.FilterPass.MoveFiltered`; the whole pass is
  `Filters.FilterPass.CheckMsg`.
- **Substring matcher** (`filters_searchString`). The decoded header and the
  search text are both escaped with `addslashes`, then compared with a
  case-sensitive or case-insensitive substring test. There is an optional
  retry on the base64-decoded header.
  Module `Matcher`.
- **Rule store** (`filters_save`, `filters_delete`,
  `filters_addMoveSpamRule`). Save appends a trimmed and escaped rule.
  Delete blanks a slot and removes it with `array_diff`. The spam bootstrap
  adds the `[SPAM]`-subject / `X-Spam-Flag: Yes` rule pair at login, once.
  Module `RuleStore`; class `RuleStore.Prefs`.
- **`storage_init`**, which appends the spam headers to the fetched header
  list. `Filters.StorageInit`.

Supporting modules:
- `OrderedMaps` models PHP arrays used as dictionaries: insertion-ordered
  key/value sequences where assigning to a present key replaces the value in
  place.
- `PhpStrings` models the PHP string built-ins the plugin relies on:
  `addslashes`/`stripslashes`, `htmlspecialchars`/`html_entity_decode`,
  `trim`, ASCII case folding, `strpos` as "contains", `explode`/`implode`, and
  `empty()` on strings.

The mail storage is outside the model. Folder existence is a function
parameter `folderExists`. The `set_flag` and `move_message` calls are
entries appended to a call log (`Batch.StoreCall`), so the order of flag
calls and moves is part of what is proved. The header decoder
`rcube_mime::decode_header` and `base64_decode` are function-valued fields
of `Matcher.Config` that the model never looks inside. The outcome of each
`save_prefs` call is a boolean parameter.

Each loop the plugin runs is a method with loop invariants, proved against a
function that states what the loop computes. Examples:
- `Winning` against `Evaluator.Scan`;
- `MoveFiltered` against `Batch.MovePlan`;
- `ArrayDiffBlank` against `RuleStore.Kept`;
- `SpamRulePresent` against `RuleStore.HasSpamRule`.

Those functions in turn are related by lemmas to independent reference
definitions:
- `Evaluator.Winner` is the first priority hit, or else the first plain hit;
- `Batch.FirstSeen`, `Batch.RoutedTo` and `Batch.FlagLog` describe the
  destination list, the uids and the flag calls one concern at a time;
- `RuleStore.RemoveKey` is deletion by key.

Where the code does something a user might not expect, the model follows the
code:
- **Deleting a rule keeps the other rules' keys.** The delete link carries a
  key, not a position. `array_diff` preserves keys, so the keys of the
  remaining rules do not change (their positions do). `RuleStore.Prefs.Delete`
  and `RuleStore.BlankThenDiff` state this.
- **A destination folder whose name contains `#` is misparsed.** The index
  template is split on `#`. `RuleIndex.HashInFolderMisread` shows such a
  rule read back with a different destination and a non-empty priority.
  `RuleIndex.DecodeEncode` is the round trip when no field contains `#`.
- **The base64 retry compares different escapings.** It compares the decoded
  base64 text, *not* escaped, with the escaped needle. A search text holding
  a quote, double quote, backslash or NUL is therefore never found by the
  retry in a text without a backslash, even when that text contains it.
  See `Matcher.RetryMissesEscapedText`.
- **NUL is escaped as `\0`.** `addslashes` turns NUL into a backslash followed
  by the digit `0`, so a header holding NUL matches the typed text `0` even
  though it does not contain it (`Matcher.NulMatchesZero`). For headers and
  search texts without NUL, the primary search finds exactly the texts the
  header contains, as typed (`Matcher.PrimaryMatchAsTyped`,
  `RuleStore.SavedRulePrimaryAsTyped`).
- **Folder names are stored escaped.** Save escapes folder names with
  `addslashes`, but the index compares them raw with the open mailbox and the
  folder list. A rule whose source folder holds a quote, double quote,
  backslash or NUL therefore never qualifies: its stored source is longer
  than the name typed, so it never equals that mailbox
  (`RuleStore.QuotedSourceNeverQualifies`). A destination folder with such a
  character is looked up, and moved to, under its escaped name. The model
  keeps the escaping (`RuleStore.NewRule`) and the raw comparison
  (`RuleIndex.Qualifies`).
- **Missing priority.** The lines that default a missing `filterpriority` to
  0 during indexing do not parse as written. The model gives them their
  evident meaning: a missing priority reads as `"0"`
  (`RuleIndex.TemplateOf`).
- **The delete request.** `filters_delete` reads the request through a bare
  `filterid` constant. The model uses the evident `'filterid'` key, as an
  optional number.

## Model

Rows whose third column starts with "definition" name a function that the
other members compute against; the lemmas named there state its properties.

| member | source | states |
|---|---|---|
| OrderedMaps.Get | filters.php:381-382 | a lookup finds a value exactly when the key is present, and the value found is stored under that key; a missing key is stored nowhere |
| OrderedMaps.Put | filters.php:117-118 | after `$m[$k] = $v` the key reads back as `$v`, every other key reads as before, and a new key is appended at the end |
| OrderedMaps.PutPresentInPlace | filters.php:117-118 | overwriting a present key keeps the length, every position's key, and every other entry; only that entry's value changes |
| OrderedMaps.PutUnique | filters.php:117-118 | assignment never creates a duplicate key |
| PhpStrings.AddSlashes | filters.php:449-450 | definition of `addslashes`; characterised by StripAddSlashes, AddSlashesAppend, AddSlashesPlain, AddSlashesBackslash, AddSlashesLength, AddSlashesPrefix |
| PhpStrings.StripSlashes | filters.php:447 | definition of `stripslashes`; characterised by StripAddSlashes |
| PhpStrings.StripAddSlashes | filters.php:447-450 | `stripslashes(addslashes(s)) == s` |
| PhpStrings.AddSlashesAppend | filters.php:449-450 | escaping distributes over concatenation |
| PhpStrings.AddSlashesPlain | filters.php:449-450 | text without a quote, double quote, backslash or NUL is left unchanged by `addslashes` |
| PhpStrings.AddSlashesBackslash | filters.php:450 | escaping a text that holds a quote, double quote, backslash or NUL produces a backslash |
| PhpStrings.AddSlashesLength | filters.php:188-189 | escaping never shortens a text, and lengthens every text holding a quote, double quote, backslash or NUL |
| PhpStrings.AddSlashesPrefix | filters.php:449-450 | if one escaped text is a prefix of another, so are the texts themselves |
| PhpStrings.AddSlashesAfterBackslash | filters.php:449-450 | for NUL-free texts, an escaped text that is a prefix of an escaped backslash followed by more text came from a backslash followed by a prefix of that text |
| PhpStrings.ContainsEscapedOnly | filters.php:449-462 | for NUL-free texts, an escaped needle found in the escaped text means the needle is in the text |
| PhpStrings.Lower | filters.php:452-457 | definition of ASCII lower-casing; characterised by LowerChars, LowerAppend, LowerAddSlashes, LowerKeeps |
| PhpStrings.LowerChars | filters.php:452-457 | lower-casing keeps the length, maps each of `A`-`Z` to its small letter, and keeps every other character |
| PhpStrings.Upper | filters.php:69 | definition of `strtoupper` on ASCII letters; characterised by UpperChars |
| PhpStrings.UpperChars | filters.php:69 | upper-casing keeps the length, maps each of `a`-`z` to its capital, and keeps every other character |
| PhpStrings.LowerAddSlashes | filters.php:452-457 | case folding commutes with `addslashes` |
| PhpStrings.LowerAppend | filters.php:452-457 | case folding distributes over concatenation |
| PhpStrings.LowerKeeps | filters.php:452-457 | case folding neither adds nor removes a character that is not a letter, such as a backslash or NUL |
| PhpStrings.Contains | filters.php:462 | definition of `strpos(...) !== false`; characterised by ContainsAfterPrefix, ContainsAddSlashes, ContainsEscapedOnly, Matcher.NotFound |
| PhpStrings.ContainsAfterPrefix | filters.php:462 | an occurrence survives a prefix being put in front of the text |
| PhpStrings.PrefixAddSlashes | filters.php:449-450 | escaping preserves the prefix relation |
| PhpStrings.ContainsAddSlashes | filters.php:449-462 | a needle found in a text is still found after both are escaped |
| PhpStrings.HtmlSpecialChars | filters.php:187 | definition of `htmlspecialchars` with `ENT_QUOTES`; characterised by HtmlRoundTrip |
| PhpStrings.HtmlEntityDecode | filters.php:115 | definition of `html_entity_decode` on the five entities; characterised by HtmlRoundTrip, DecodeEntityStep |
| PhpStrings.HtmlRoundTrip | filters.php:187 | `html_entity_decode(htmlspecialchars(s)) == s` on the five escaped characters |
| PhpStrings.DecodeEntityStep | filters.php:115 | decoding an escaped character followed by more text yields that character, then the decoding of the rest |
| PhpStrings.TrimLeft | filters.php:175-181 | the result is a suffix of the input; only trimmed characters are dropped; the result starts with a kept character or is empty |
| PhpStrings.TrimRight | filters.php:175-181 | the result is a prefix of the input; only trimmed characters are dropped; the result ends with a kept character or is empty |
| PhpStrings.Trim | filters.php:175-181 | `trim` is a slice of the input preceded and followed only by whitespace or NUL; it is empty exactly when every character is whitespace or NUL, and otherwise neither starts nor ends with one |
| PhpStrings.TrimMiddle | filters.php:175-181 | stripping the left end and then the right end leaves the slice after the stripped prefix, with only whitespace or NUL around it |
| PhpStrings.TrimEmpty | filters.php:183 | stripping both ends leaves nothing exactly when the input is all whitespace or NUL, and otherwise leaves a text that neither starts nor ends with one |
| PhpStrings.Explode | filters.php:383 | `explode` never returns an empty list, and text without the separator is one piece |
| PhpStrings.ExplodeCons | filters.php:383 | a piece without a separator, followed by the separator, is split off whole |
| PhpStrings.Implode | filters.php:69 | definition of `implode`; characterised by ImplodeSnoc |
| PhpStrings.ImplodeSnoc | filters.php:69 | one more piece at the end adds the glue and that piece |
| PhpStrings.IsEmpty | filters.php:391 | definition of PHP `empty()` on a string: `""` and `"0"`; characterised by Evaluator.ScopeGating, Evaluator.NeverToOpenMailbox |
| RuleIndex.Encode | filters.php:117-118 | definition of the template `dest#scope#priority#mark`; characterised by DecodeEncode, HashInFolderMisread |
| RuleIndex.Decode | filters.php:383-387 | definition of the split on `#`; characterised by DecodeEncode, HashInFolderMisread |
| RuleIndex.DecodeEncode | filters.php:383-387 | the template `dest#scope#priority#mark` splits back into exactly its four fields when none of them holds `#` |
| RuleIndex.HashInFolderMisread | filters.php:117-118 | a destination folder named `Projects#2` is read back as `Projects`, with scope `2` and a non-empty priority |
| RuleIndex.TemplateOf | filters.php:108-118 | definition of a rule's template, a missing priority reading as `"0"`; characterised by IndexLookup |
| RuleIndex.Qualifies | filters.php:114 | definition of the indexing condition; characterised by IndexedIffQualifying, NothingQualifiesNoChange, RuleStore.QuotedSourceNeverQualifies |
| RuleIndex.IndexKey | filters.php:115 | definition of the index key, the stored search text with entities decoded; characterised by RuleStore.SavedRuleMatchesTyped, RuleStore.SavedRulePrimaryAsTyped |
| RuleIndex.Inner | filters.php:381 | definition of `$this->searchstring[$field]`, no entries when it is not set; characterised by LookupAssign, OverwriteInPlace |
| RuleIndex.Lookup | filters.php:381-382 | definition of the read `$this->searchstring[$field][$text]`, none when unset; characterised by LookupAssign, IndexLookup, IndexedIffQualifying |
| RuleIndex.Assign | filters.php:117-118 | definition of the nested assignment `$this->searchstring[$field][$text] = ...`; characterised by LookupAssign, AssignWellFormed, OverwriteInPlace |
| RuleIndex.AddRule | filters.php:113-128 | definition of one indexing step; characterised by LookupAssign, AssignWellFormed, OverwriteInPlace |
| RuleIndex.AddRules | filters.php:107-129 | definition of the indexing loop; characterised by IndexLookup, IndexedIffQualifying, AddRulesWellFormed, NothingQualifiesNoChange |
| RuleIndex.LookupAssign | filters.php:117-118 | after an assignment the assigned (field, text) reads back as the new value, and every other pair reads as before |
| RuleIndex.NothingQualifiesNoChange | filters.php:107-129 | when no rule qualifies, the index is unchanged |
| RuleIndex.LastKeyed | filters.php:107-129 | finds the last qualifying rule with the given field and search text, or reports that none exists |
| RuleIndex.IndexLookup | filters.php:107-129 | the last write wins: each (field, text) entry holds the template of the last qualifying rule with that key, or what the index held before if there is none |
| RuleIndex.IndexedIffQualifying | filters.php:113-119 | starting from an empty index, (field, text) is indexed if and only if some rule with that key has both folders existing, its source equal to the open mailbox, and a destination different from its source |
| RuleIndex.AssignWellFormed | filters.php:117-118 | assignment keeps the keys unique at both levels |
| RuleIndex.AddRulesWellFormed | filters.php:107-129 | indexing keeps the keys unique at both levels |
| RuleIndex.OverwriteInPlace | filters.php:117-118 | a later rule with an already-indexed (field, text) replaces the template without changing the field order or any field's text order |
| Filters.FilterPass.BuildIndex | filters.php:107-129 | the indexing loop leaves the index that the rules fold to (`AddRules`) |
| Evaluator.Scan | filters.php:380-405 | definition of the nested loops with `break 2`; characterised by ScanHeld, ScanFromEmpty, ScanDecidesAsWinner, IneligibleIrrelevant |
| Evaluator.Winner | filters.php:380-405 | reference definition: the first priority hit, else the first plain hit; characterised by ScanFromEmpty, PriorityWins, FirstMatchWins |
| Evaluator.Decide | filters.php:406-416 | definition of the scope test; characterised by ScopeGating |
| Evaluator.Evaluate | filters.php:369-416 | definition of a message's disposition; characterised by ScanDecidesAsWinner, ScopeGating, NeverToOpenMailbox |
| Evaluator.Headers | filters.php:375 | definition of the scan's field order `from, to, cc, subject`, then the spam headers; characterised by Evaluator.CandidatesAt, Filters.FilterPass.Winning |
| Evaluator.FieldCandidates | filters.php:382 | definition of the inner loop's visiting order, the entries of one field in index order; characterised by FieldCandidatesAt, ScanDecidesAsWinner |
| Evaluator.Candidates | filters.php:380-382 | definition of the nested loops' visiting order, field by field in header order and within a field in index order; characterised by CandidatesAt, ScanDecidesAsWinner, Filters.FilterPass.Winning |
| Evaluator.FieldValue | filters.php:388 | definition of the header read: the header object's own field, else the lower-cased name in `others`, else empty; characterised by Eligible |
| Evaluator.Eligible | filters.php:390 | definition of a hit: the field matches the search text and the destination is not the open mailbox; characterised by IneligibleIrrelevant, NeverToOpenMailbox |
| Evaluator.PriorityHit | filters.php:390-395 | definition of a hit with a priority; characterised by FirstPriority, PriorityWins |
| Evaluator.PlainHit | filters.php:397-401 | definition of a hit with a destination; characterised by FirstPlain, FirstMatchWins |
| Evaluator.FirstPriority | filters.php:390-395 | the position of the first eligible entry with a non-empty priority, or none if no entry qualifies |
| Evaluator.FirstPlain | filters.php:397-401 | the position of the first eligible entry with a non-empty destination, or none if no entry qualifies |
| Evaluator.ScanHeld | filters.php:397-401 | once a destination is held, only a later priority hit replaces it |
| Evaluator.ScanFromEmpty | filters.php:380-405 | the loop semantics, started with an empty destination, decide the same disposition as the declarative winner |
| Evaluator.ScanDecidesAsWinner | filters.php:380-416 | the nested scan and the declarative winner give every message the same disposition |
| Evaluator.PriorityWins | filters.php:390-395 | the first priority hit wins over every earlier plain hit |
| Evaluator.FirstMatchWins | filters.php:397-401 | without any priority hit, the first hit with a destination wins |
| Evaluator.NeverToOpenMailbox | filters.php:390 | a message is never moved into the open mailbox, and a message that no entry matches stays where it is |
| Evaluator.ScopeGating | filters.php:406-416 | with a winning destination, the message is moved with the winner's mark if and only if the scope is not `unread` on a seen message and not `isread` on an unseen one; otherwise it stays |
| Evaluator.IneligibleIrrelevant | filters.php:390 | an entry that does not match, or whose destination is the open mailbox, has no influence on the scan |
| Filters.FilterPass.Winning | filters.php:375-405 | the nested loops with `break 2` compute the scan's destination, scope and mark |
| Filters.FilterPass.Search | filters.php:369-432 | the new state is the old one with this message's disposition recorded |
| Filters.FilterPass.Accept | filters.php:417-431 | the uid is appended to the destination's list, the destination is listed once, and the flag call the mark asks for is issued |
| Filters.FilterPass.MarkRead | filters.php:434-439 | exactly one flag call, for this uid, is appended to the log |
| Batch.FlagCalls | filters.php:421-431 | a flag call is made only for `markread` (SEEN) or `markunread` (UNSEEN), and at most one |
| Batch.Record | filters.php:417-431 | definition of recording one disposition; characterised by RecordWellFormed, RecordAllDestinations, RecordAllUids, RecordAllLog |
| Batch.RecordAll | filters.php:136-138 | definition of the message loop; characterised by RecordAllWellFormed, RecordAllDestinations, RecordAllUids, RecordAllLog |
| Filters.FilterPass.SearchAll | filters.php:136-138 | the message loop records every message's disposition in list order |
| Batch.FirstSeen | filters.php:418-420 | the destination list without repeats holds the same folders |
| Batch.FirstSeenOrder | filters.php:418-420 | folders are listed in the order they first occur |
| Batch.IndexOf | filters.php:418 | the first position of a listed folder |
| Batch.RecordWellFormed | filters.php:417-420 | recording a disposition keeps the destination list free of duplicates, and each listed folder has a non-empty uid list |
| Batch.RecordAllWellFormed | filters.php:136-138 | the message loop keeps that invariant |
| Batch.RecordAllDestinations | filters.php:417-420 | from a fresh object, the destination list is the moved messages' folders in first-seen order |
| Batch.RecordAllUids | filters.php:417 | from a fresh object, every destination holds the uids routed to it, in message order |
| Batch.RecordAllLog | filters.php:421-431 | from a fresh object, the log holds the flag calls of the moved messages, in message order |
| Batch.TargetsNotOpen | filters.php:390 | no moved message targets the open mailbox |
| Batch.TargetsFrom | filters.php:390 | if no disposition targets the open mailbox, no destination is the open mailbox |
| Batch.MovePlan | filters.php:141-156 | definition of the batch move; characterised by MovePlanAt |
| Batch.MoveOf | filters.php:147-148 | definition of the move for one destination, none when it holds no uids; characterised by MovePlanAt |
| Batch.Finish | filters.php:140-156 | definition of the batch move's effect on the pass state, the move plan appended to the log; characterised by MovePlanAt, PassMoves, Filters.FilterPass.MoveFiltered |
| Batch.MovePlanAt | filters.php:141-156 | exactly one move per listed destination, in list order, each with that destination's uids, from the open mailbox |
| Filters.FilterPass.MoveFiltered | filters.php:141-156 | the batch loop appends exactly the move plan to the log |
| Batch.Pass | filters.php:87-157 | definition of a whole pass; characterised by PassNoEffect, PassMoves, Filters.FilterPass.CheckMsg |
| Batch.PassNoEffect | filters.php:131-133 | with no stored rules, no qualifying rule or no message list, the pass records no uids, sets no flags and moves nothing |
| Batch.PassMoves | filters.php:136-156 | a full pass: destinations in first-seen order, none of them the open mailbox; each destination's uids in message order; the flag calls, then one move per destination |
| Filters.FilterPass.CheckMsg | filters.php:87-157 | the open mailbox is set; the index is the rules' fold; the early return leaves the state alone; otherwise every message is recorded and the batch moved; from a fresh object, the result is the whole pass `Pass` |
| Filters.StorageInit | filters.php:63-73 | with no spam headers, the fetch list is unchanged (an unset list reads as empty); otherwise the result has no whitespace at either end |
| Filters.StorageInitAppends | filters.php:63-73 | for clean inputs, the upper-cased spam headers are appended after one space, or form the whole list when the fetch list is empty |
| Matcher.SearchString | filters.php:441-495 | definition of `filters_searchString`; characterised by RetryOnlyOnMiss, SavedTextMatchesAsTyped, PrimaryMatchAsTyped, NulMatchesZero, CaseModes, RetryMissesEscapedText |
| Matcher.Find | filters.php:452-463 | definition of `mb_stripos`/`mb_strpos` reduced to found or not; characterised by CaseModes, NotFound, PrimaryMatchAsTyped |
| Matcher.Needle | filters.php:447-450 | definition of the needle, the search text unescaped with `stripslashes` and escaped again with `addslashes`; characterised by PrimaryMatchAsTyped, RetryMissesEscapedText |
| Matcher.PrimaryMatch | filters.php:445-464 | definition of the primary search, escaped header against the escaped needle; characterised by RetryOnlyOnMiss, SavedTextMatchesAsTyped, PrimaryMatchAsTyped, NulMatchesZero |
| Matcher.Base64Match | filters.php:469-490 | definition of the base64 retry, unescaped decoded text against the escaped needle; characterised by RetryOnlyOnMiss, RetryMissesEscapedText |
| Matcher.RetryOnlyOnMiss | filters.php:466-491 | the retry runs only when the primary search misses and `decodeBase64Msg` is on; a primary hit always matches |
| Matcher.SavedTextMatchesAsTyped | filters.php:441-464 | a search text saved escaped matches every header containing the typed text, ignoring ASCII case in case-insensitive mode |
| Matcher.PrimaryMatchAsTyped | filters.php:441-464 | for a header and a typed text without NUL, the primary search on the saved text succeeds if and only if the header contains the typed text (ignoring ASCII case in case-insensitive mode) |
| Matcher.NulMatchesZero | filters.php:449-462 | a header consisting of NUL matches the saved text `0` though it does not contain `0` |
| Matcher.CaseModes | filters.php:452-463 | `spam` is found in `SPAM` in case-insensitive mode and not in case-sensitive mode |
| Matcher.NotFound | filters.php:462 | a needle holding a character that the text lacks is not found |
| Matcher.RetryMissesEscapedText | filters.php:469-491 | a retry never finds a typed text holding a quote, double quote, backslash or NUL in a decoded text without a backslash, even when that text contains it |
| RuleStore.NewRule | filters.php:175-192 | no rule when the search text is all whitespace; otherwise the header field, scope, priority and mark are the trimmed inputs, the search text is the trimmed input passed through `addslashes` and then `htmlspecialchars`, the folders are the trimmed inputs passed through `addslashes`, and unescaping gives the trimmed search text and folders back |
| RuleStore.SavedRuleMatchesTyped | filters.php:183-192 | a saved rule's index key matches every header containing the text as typed |
| RuleStore.SavedRulePrimaryAsTyped | filters.php:183-192 | for a header and a trimmed search text without NUL, the primary search on the saved rule's index key succeeds if and only if the header contains the trimmed text |
| RuleStore.QuotedSourceNeverQualifies | filters.php:188 | a saved rule whose trimmed source folder holds a quote, double quote, backslash or NUL never qualifies for that folder |
| RuleStore.NextKey | filters.php:194 | `$a[] =` uses a key above every present key: 0 for an empty list, otherwise one more than the largest |
| RuleStore.Append | filters.php:194 | definition of `$a[] = $rule`; characterised by NextKey, AppendFresh |
| RuleStore.AppendFresh | filters.php:194 | an append keeps every stored rule under its key and in its place, adds the new rule last under a fresh key, and keeps keys unique |
| RuleStore.Prefs.StoreAppended | filters.php:193-199 | the list gains the appended rule only when the preference save succeeds |
| RuleStore.Prefs.Save | filters.php:167-202 | a trimmed-empty search text is refused and nothing changes; otherwise exactly one rule is appended, and kept exactly when the save succeeds |
| RuleStore.RemoveKey | filters.php:216-217 | the key is gone and every other key reads as before |
| RuleStore.RemoveAbsent | filters.php:216-217 | deleting an absent key leaves the list unchanged |
| RuleStore.RemoveKeyAt | filters.php:216-217 | deleting a present key drops exactly its entry; the other rules keep their keys and order |
| RuleStore.RemoveKeyUnique | filters.php:216-217 | deletion keeps keys unique |
| RuleStore.Kept | filters.php:217 | definition of `array_diff` against the blank rule; characterised by KeptLift, BlankThenDiff, ArrayDiffBlank |
| RuleStore.KeptLift | filters.php:217 | `array_diff` on a list without blanks changes nothing |
| RuleStore.BlankThenDiff | filters.php:216-217 | blanking the slot of key `k` and then diffing out the blank is deletion of `k` |
| RuleStore.ArrayDiffBlank | filters.php:217 | the diff loop keeps exactly the filled slots, keys and order intact |
| RuleStore.Prefs.Delete | filters.php:205-232 | with no request nothing changes; otherwise the key is removed, and the result is kept exactly when the save succeeds |
| RuleStore.Bootstrap | filters.php:509-536 | definition of the spam bootstrap; characterised by BootstrapAppendsPair, BootstrapIdempotent, SpamRulePresent |
| RuleStore.IsSpamRule | filters.php:511-516 | definition of the two tests inside the `found` loop; characterised by SpamRulePresent |
| RuleStore.HasSpamRule | filters.php:509-517 | definition of what the `found` loop reports; characterised by SpamRulePresent, BootstrapIdempotent |
| RuleStore.SubjectRule | filters.php:519-526 | definition of the first rule the bootstrap appends; characterised by BootstrapAppendsPair |
| RuleStore.FlagRule | filters.php:528-534 | definition of the second rule the bootstrap appends; characterised by BootstrapAppendsPair |
| RuleStore.SpamRulePresent | filters.php:509-517 | the `found` loop reports whether a (`subject`, spam subject) or (`X-Spam-Flag`, `Yes`) rule is stored |
| RuleStore.BootstrapAppendsPair | filters.php:519-536 | with no spam rule and a junk folder, both saves succeeding append exactly two rules, the subject rule and then the flag rule, from INBOX to the junk folder with scope `all` |
| RuleStore.BootstrapIdempotent | filters.php:509-536 | after a bootstrap that stored a rule or found one, a second bootstrap adds nothing |
| RuleStore.Prefs.AddMoveSpamRule | filters.php:497-538 | the stored list becomes the bootstrap of the old one |

## Left out

- `js/filters.js` (browser-side validation and command wiring) is not part of this model.
- `filters_form`, `init`, `settings_actions` and `filters_init` (HTML rendering, hook and action registration, localisation) are not part of this model. The `Config` fields stand for the configuration `init` reads.
- UI refresh calls, `storage->count` and `output->send()` inside the batch move are left out. The model treats `send()` as returning, so the loop continues to the next destination.
- Status messages shown after save and delete are reduced to the `SaveOutcome`/`DeleteOutcome` values.
- `rcube_mime::decode_header` and `base64_decode` are uninterpreted functions in `Matcher.Config`. The `$decode_msg !== false` test is always passed, because the decoder returns a string.
- Matcher.Find: `mb_stripos`/`mb_strpos` fold case on ASCII letters only, with no Unicode case folding. Only found/not-found is modelled, not the position.
- PhpStrings.HtmlEntityDecode: decodes only the five entities `htmlspecialchars` produces (`&amp;`, `&quot;`, `&#039;`, `&lt;`, `&gt;`). Any other entity in a stored search text is kept as written.
- PHP's loose comparisons (`==`, `!=`, `in_array`) are modelled as string equality, because every compared value is a string here. A numeric string like `"1e1"` compares loosely equal to `"10"` in PHP, but not in the model.
- RuleStore.NextKey: covers only the integer keys that `$a[] =` and the delete link produce. String keys and a non-numeric `filterid` are not modelled.
- The `spam_headers` setting is a list of header names. `init`'s string default `'X-Spam-Flag'` (which `array_merge` would reject) is not modelled.
- `save_prefs` is a boolean parameter per call. The model assumes that a failed `save_prefs` leaves the stored list unchanged, so the next `get_prefs` (filters.php:525, 533) reads the list as it was before; for the bootstrap, a failed first save and a successful second one store only the flag rule (RuleStore.Bootstrap). What `get_prefs` returns after a failed save depends on `rcube_user`, which is not part of this model. Failures of the storage calls themselves (`set_flag`, `move_message`) are not modelled.
- The bootstrap reads the stored rules from the configuration but appends to the user preferences. The model treats both as the same list (`RuleStore.Prefs.filters`).
- Concurrency between requests is left out: each operation runs to completion on its own state.
- A message's `SEEN` flag is a boolean, and its header fields are a string map with the `others` map as fallback. PHP objects and property access are otherwise not modelled.
- RuleIndex.Qualifies: for a rule whose destination folder holds a quote, double quote, backslash or NUL, whether it qualifies depends on what the folder-existence function answers for the escaped name. Folder existence is a parameter here, so no lemma states the outcome.
- PHP strings are byte strings; the model's are sequences of characters. `htmlspecialchars` at filters.php:187 runs with the default flags of PHP 8.1 and later, which include `ENT_SUBSTITUTE`, so invalid UTF-8 in a saved search text becomes U+FFFD. The model has no notion of encoding and does not capture this (PhpStrings.HtmlSpecialChars).

=== FILE: batch.dfy ===
/**
  The state one filtering pass builds (the plugin's msg_uids and destfolder
  fields, filters.php:417-420) and the storage calls it issues: flag calls
  per accepted message (filters.php:421-431, 434-439) and one move per
  destination folder (filters.php:141-156).
 */
module Batch {
  import opened Wrappers
  import opened PhpStrings
  import opened RuleIndex
  import opened Matcher
  import opened Evaluator

  datatype Flag = Seen | Unseen

  /** A call into the mail storage: `set_flag` or `move_message`. */
  datatype StoreCall =
    | SetFlag(uid: nat, flag: Flag)
    | MoveMessages(uids: seq<nat>, to: string, from: string)

  /** The uid lists per destination, the destinations in first-seen order,
      and the storage calls issued so far. */
  datatype PassState = PassState(msgUids: map<string, seq<nat>>, destfolder: seq<string>, log: seq<StoreCall>)

  const Empty := PassState(map[], [], [])

  /** `$this->msg_uids[$d]`, or nothing when unset. */
  function UidsFor(msgUids: map<string, seq<nat>>, d: string): seq<nat>
  {
    if d in msgUids then msgUids[d] else []
  }

  /** The flag call for a winning mark: "markread" sets SEEN, "markunread"
      sets UNSEEN, any other mark sets nothing. */
  function FlagCalls(uid: nat, mark: string): (r: seq<StoreCall>)
    ensures |r| <= 1
    ensures r != [] <==> mark == "markread" || mark == "markunread"
    ensures r != [] ==> r[0] == SetFlag(uid, if mark == "markread" then Seen else Unseen)
  {
    if mark == "markread" then [SetFlag(uid, Seen)]
    else if mark == "markunread" then [SetFlag(uid, Unseen)]
    else []
  }

  /** The effect of one message's disposition on the pass state. */
  function Record(st: PassState, uid: nat, d: Disposition): PassState
  {
    match d
    case Keep => st
    case MoveTo(dest, mark) =>
      PassState(
        st.msgUids[dest := UidsFor(st.msgUids, dest) + [uid]],
        if dest in st.destfolder then st.destfolder else st.destfolder + [dest],
        st.log + FlagCalls(uid, mark))
  }

  /** Each message's uid with its disposition, in list order. */
  function Outcomes(cfg: Config, open: string, ix: Index, ms: seq<Message>): (r: seq<(nat, Disposition)>)
    ensures |r| == |ms|
    ensures forall i :: 0 <= i < |ms| ==> r[i] == (ms[i].uid, Evaluate(cfg, open, ix, ms[i]))
  {
    seq(|ms|, i requires 0 <= i < |ms| => (ms[i].uid, Evaluate(cfg, open, ix, ms[i])))
  }

  /** The outcomes of the messages, recorded in order. */
  function RecordAll(st: PassState, os: seq<(nat, Disposition)>): PassState
  {
    if os == [] then st
    else Record(RecordAll(st, os[..|os| - 1]), os[|os| - 1].0, os[|os| - 1].1)
  }

  /** Recording one more outcome. */
  lemma RecordAllStep(st: PassState, os: seq<(nat, Disposition)>, i: nat)
    requires i < |os|
    ensures RecordAll(st, os[..i + 1]) == Record(RecordAll(st, os[..i]), os[i].0, os[i].1)
  {
    assert os[..i + 1][..i] == os[..i];
  }

  /** One move of a destination's uids, when it has any. */
  function MoveOf(msgUids: map<string, seq<nat>>, d: string, open: string): seq<StoreCall>
  {
    var uids := UidsFor(msgUids, d);
    if uids == [] then [] else [MoveMessages(uids, d, open)]
  }

  /** The moves of the batch, destination by destination. */
  function MovePlan(ds: seq<string>, msgUids: map<string, seq<nat>>, open: string): seq<StoreCall>
  {
    if ds == [] then []
    else MovePlan(ds[..|ds| - 1], msgUids, open) + MoveOf(msgUids, ds[|ds| - 1], open)
  }

  function Finish(st: PassState, open: string): PassState
  {
    st.(log := st.log + MovePlan(st.destfolder, st.msgUids, open))
  }

  /** A whole filtering pass from a fresh plugin object: build the index;
      stop when there are no stored rules, no indexed rule or no message
      list; otherwise record every message and move the batch. */
  function Pass(cfg: Config, open: string, folderExists: string -> bool, rules: seq<Rule>, messages: Option<seq<Message>>): PassState
  {
    var ix := AddRules([], rules, open, folderExists);
    if rules == [] || ix == [] || messages.None? then Empty
    else Finish(RecordAll(Empty, Outcomes(cfg, open, ix, messages.value)), open)
  }

  // ---------------------------------------------------------------------
  // Reference definitions, one concern at a time

  /** The destinations of the moved messages, in message order. */
  function Targets(os: seq<(nat, Disposition)>): seq<string>
  {
    if os == [] then []
    else
      var d := os[|os| - 1].1;
      Targets(os[..|os| - 1]) + (if d.MoveTo? then [d.dest] else [])
  }

  /** The uids of the messages routed to `dest`, in message order. */
  function RoutedTo(os: seq<(nat, Disposition)>, dest: string): seq<nat>
  {
    if os == [] then []
    else
      var d := os[|os| - 1].1;
      RoutedTo(os[..|os| - 1], dest) + (if d.MoveTo? && d.dest == dest then [os[|os| - 1].0] else [])
  }

  /** The flag calls of the moved messages, in message order. */
  function FlagLog(os: seq<(nat, Disposition)>): seq<StoreCall>
  {
    if os == [] then []
    else
      var d := os[|os| - 1].1;
      FlagLog(os[..|os| - 1]) + (if d.MoveTo? then FlagCalls(os[|os| - 1].0, d.mark) else [])
  }

  predicate Distinct(xs: seq<string>)
  {
    forall i, j :: 0 <= i < j < |xs| ==> xs[i] != xs[j]
  }

  /** The elements of `xs` without repeats, each where it first occurs. */
  function FirstSeen(xs: seq<string>): (r: seq<string>)
    ensures Distinct(r)
    ensures forall x :: x in r <==> x in xs
  {
    if xs == [] then []
    else
      var f := FirstSeen(xs[..|xs| - 1]);
      assert forall x :: x in xs <==> x in xs[..|xs| - 1] || x == xs[|xs| - 1];
      if xs[|xs| - 1] in f then f else f + [xs[|xs| - 1]]
  }

  /** The first position of `x` in `xs`. */
  function IndexOf(xs: seq<string>, x: string): (r: nat)
    requires x in xs
    ensures r < |xs| && xs[r] == x && x !in xs[..r]
  {
    if xs[0] == x then 0
    else
      var k := IndexOf(xs[1..], x);
      assert xs[..k + 1] == [xs[0]] + xs[1..][..k];
      k + 1
  }

  lemma IndexOfUnique(xs: seq<string>, x: string, p: nat)
    requires p < |xs| && xs[p] == x && x !in xs[..p]
    ensures IndexOf(xs, x) == p
  {
  }

  /** FirstSeen keeps the order of first occurrences. */
  lemma {:induction false} FirstSeenOrder(xs: seq<string>)
    ensures forall i, j :: 0 <= i < j < |FirstSeen(xs)| ==>
      IndexOf(xs, FirstSeen(xs)[i]) < IndexOf(xs, FirstSeen(xs)[j])
  {
    if xs != [] {
      var init, x := xs[..|xs| - 1], xs[|xs| - 1];
      var f := FirstSeen(init);
      FirstSeenOrder(init);
      assert xs == init + [x];
      forall y | y in init ensures IndexOf(xs, y) == IndexOf(init, y) {
        var p := IndexOf(init, y);
        assert xs[..p] == init[..p];
        IndexOfUnique(xs, y, p);
      }
      if x !in init {
        assert xs[..|init|] == init;
        IndexOfUnique(xs, x, |init|);
      }
    }
  }

  // ---------------------------------------------------------------------
  // Invariants of the pass state

  /** The destination list has no duplicates, lists exactly the folders
      that have uids, and every listed folder has at least one uid. */
  ghost predicate WellFormed(st: PassState)
  {
    && Distinct(st.destfolder)
    && (forall d :: d in st.msgUids <==> d in st.destfolder)
    && (forall d :: d in st.msgUids ==> st.msgUids[d] != [])
  }

  lemma RecordWellFormed(st: PassState, uid: nat, d: Disposition)
    requires WellFormed(st)
    ensures WellFormed(Record(st, uid, d))
  {
  }

  lemma {:induction false} RecordAllWellFormed(st: PassState, os: seq<(nat, Disposition)>)
    requires WellFormed(st)
    ensures WellFormed(RecordAll(st, os))
  {
    if os != [] {
      RecordAllWellFormed(st, os[..|os| - 1]);
      RecordWellFormed(RecordAll(st, os[..|os| - 1]), os[|os| - 1].0, os[|os| - 1].1);
    }
  }

  /** From a fresh state, the destination list is the moved messages'
      folders in first-seen order. */
  lemma {:induction false} RecordAllDestinations(os: seq<(nat, Disposition)>)
    ensures RecordAll(Empty, os).destfolder == FirstSeen(Targets(os))
  {
    if os != [] {
      var init, d := os[..|os| - 1], os[|os| - 1].1;
      RecordAllDestinations(init);
      var ts, ts0 := Targets(os), Targets(init);
      if d.MoveTo? {
        assert ts == ts0 + [d.dest];
        assert ts[..|ts| - 1] == ts0 && ts[|ts| - 1] == d.dest;
      } else {
        assert d == Keep;
        assert ts == ts0 + [] == ts0;
        assert RecordAll(Empty, os) == RecordAll(Empty, init);
      }
    }
  }

  /** From a fresh state, every destination holds the uids routed to it, in
      message order. */
  lemma {:induction false} RecordAllUids(os: seq<(nat, Disposition)>, dest: string)
    ensures UidsFor(RecordAll(Empty, os).msgUids, dest) == RoutedTo(os, dest)
  {
    if os != [] {
      RecordAllUids(os[..|os| - 1], dest);
    }
  }

  /** From a fresh state, the log holds the flag calls in message order. */
  lemma {:induction false} RecordAllLog(os: seq<(nat, Disposition)>)
    ensures RecordAll(Empty, os).log == FlagLog(os)
  {
    if os != [] {
      RecordAllLog(os[..|os| - 1]);
    }
  }

  /** Every moved message leaves for a folder other than the open one. */
  lemma TargetsNotOpen(cfg: Config, open: string, ix: Index, ms: seq<Message>)
    ensures forall d :: d in Targets(Outcomes(cfg, open, ix, ms)) ==> d != open
  {
    var os := Outcomes(cfg, open, ix, ms);
    forall i | 0 <= i < |ms| ensures os[i].1.MoveTo? ==> os[i].1.dest != open {
      NeverToOpenMailbox(cfg, open, ix, ms[i]);
    }
    TargetsFrom(os, open);
  }

  lemma {:induction false} TargetsFrom(os: seq<(nat, Disposition)>, open: string)
    requires forall i :: 0 <= i < |os| && os[i].1.MoveTo? ==> os[i].1.dest != open
    ensures forall d :: d in Targets(os) ==> d != open
  {
    if os != [] {
      TargetsFrom(os[..|os| - 1], open);
    }
  }

  /** When every listed folder has uids, the batch is one move per listed
      folder, in list order, each carrying that folder's uids. */
  lemma {:induction false} MovePlanAt(ds: seq<string>, msgUids: map<string, seq<nat>>, open: string)
    requires forall d :: d in ds ==> UidsFor(msgUids, d) != []
    ensures |MovePlan(ds, msgUids, open)| == |ds|
    ensures forall i :: 0 <= i < |ds| ==>
      MovePlan(ds, msgUids, open)[i] == MoveMessages(UidsFor(msgUids, ds[i]), ds[i], open)
  {
    if ds != [] {
      var init := ds[..|ds| - 1];
      assert forall d :: d in init ==> d in ds;
      MovePlanAt(init, msgUids, open);
    }
  }

  // ---------------------------------------------------------------------
  // The whole pass

  /** With no stored rules, no qualifying rule, or no message list, the
      pass records no uid, sets no flag and moves nothing. */
  lemma PassNoEffect(cfg: Config, open: string, folderExists: string -> bool, rules: seq<Rule>, messages: Option<seq<Message>>)
    requires || rules == []
             || (forall i :: 0 <= i < |rules| ==> !Qualifies(rules[i], open, folderExists))
             || messages.None?
    ensures Pass(cfg, open, folderExists, rules, messages) == Empty
  {
    if forall i :: 0 <= i < |rules| ==> !Qualifies(rules[i], open, folderExists) {
      NothingQualifiesNoChange([], rules, open, folderExists);
    }
  }

  /** A pass that gets to the messages: the destinations are the moved
      messages' folders in first-seen order, none of them the open mailbox;
      each gets the uids routed to it in message order; the log holds the
      flag calls in message order followed by exactly one move per
      destination, from the open mailbox, in destination order. */
  lemma PassMoves(cfg: Config, open: string, folderExists: string -> bool, rules: seq<Rule>, ms: seq<Message>)
    requires rules != [] && AddRules([], rules, open, folderExists) != []
    ensures
      var os := Outcomes(cfg, open, AddRules([], rules, open, folderExists), ms);
      var p := Pass(cfg, open, folderExists, rules, Some(ms));
      var ds := FirstSeen(Targets(os));
      && p.destfolder == ds
      && (forall d :: d in ds ==> d != open)
      && (forall d :: UidsFor(p.msgUids, d) == RoutedTo(os, d))
      && |p.log| == |FlagLog(os)| + |ds|
      && p.log[..|FlagLog(os)|] == FlagLog(os)
      && (forall i :: 0 <= i < |ds| ==> p.log[|FlagLog(os)| + i] == MoveMessages(RoutedTo(os, ds[i]), ds[i], open))
  {
    var ix := AddRules([], rules, open, folderExists);
    var os := Outcomes(cfg, open, ix, ms);
    var st := RecordAll(Empty, os);
    RecordAllWellFormed(Empty, os);
    RecordAllDestinations(os);
    RecordAllLog(os);
    forall d ensures UidsFor(st.msgUids, d) == RoutedTo(os, d) {
      RecordAllUids(os, d);
    }
    TargetsNotOpen(cfg, open, ix, ms);
    MovePlanAt(st.destfolder, st.msgUids, open);
  }
}

=== FILE: evaluator.dfy ===
/**
  The per-message evaluation of filters_search (filters.php:369-416): which
  indexed rule wins for a message, and what is then done with it.
 */
module Evaluator {
  import opened Wrappers
  import opened OrderedMaps
  import opened PhpStrings
  import opened RuleIndex
  import opened Matcher

  /** A message header from the list being displayed: its uid, its SEEN
      flag, the attributes the header object sets (from, to, cc, subject)
      and the extra fetched headers, keyed in lower case. */
  datatype Message = Message(uid: nat, seen: bool, fields: map<string, string>, others: map<string, string>)

  /** `$message->{$f}` if set, else `$message->others[strtolower($f)]` if
      set, else "". */
  function FieldValue(m: Message, f: string): string
  {
    if f in m.fields then m.fields[f]
    else if Lower(f) in m.others then m.others[Lower(f)]
    else ""
  }

  /** The fields in the order they are scanned. */
  function Headers(cfg: Config): seq<string>
  {
    ["from", "to", "cc", "subject"] + cfg.spamHeaders
  }

  /** One index entry met by the scan: its field, search text and template. */
  datatype Candidate = Candidate(field: string, text: string, template: string)

  function FieldCandidates(f: string, entries: OMap<string, string>): seq<Candidate>
  {
    if entries == [] then []
    else [Candidate(f, entries[0].0, entries[0].1)] + FieldCandidates(f, entries[1..])
  }

  /** Every index entry in scan order: field by field in `headers` order,
      and within a field in index order. */
  function Candidates(ix: Index, headers: seq<string>): seq<Candidate>
  {
    if headers == [] then []
    else FieldCandidates(headers[0], Inner(ix, headers[0])) + Candidates(ix, headers[1..])
  }

  /** The entry matches the message and does not send it to the open
      mailbox. */
  predicate Eligible(cfg: Config, open: string, m: Message, c: Candidate)
  {
    SearchString(cfg, FieldValue(m, c.field), c.text) && Decode(c.template).dest != open
  }

  /** An eligible entry with a non-empty priority: it stops the scan. */
  predicate PriorityHit(cfg: Config, open: string, m: Message, c: Candidate)
  {
    Eligible(cfg, open, m, c) && !IsEmpty(Decode(c.template).priority)
  }

  /** An eligible entry with a non-empty destination. */
  predicate PlainHit(cfg: Config, open: string, m: Message, c: Candidate)
  {
    Eligible(cfg, open, m, c) && !IsEmpty(Decode(c.template).dest)
  }

  /** The three winner variables: destination, scope and mark. */
  datatype Pick = Pick(dest: string, scope: string, mark: string)

  const NoPick := Pick("", "", "")

  function PickOf(c: Candidate): Pick
  {
    var t := Decode(c.template);
    Pick(t.dest, t.scope, t.mark)
  }

  /** The scan as the nested loops run it, from the current winner `cur`
      over the entries still to visit: a priority hit ends it, any other
      eligible entry is taken while the destination is still empty. */
  function Scan(cfg: Config, open: string, m: Message, cur: Pick, cs: seq<Candidate>): Pick
    decreases cs
  {
    if cs == [] then cur
    else if PriorityHit(cfg, open, m, cs[0]) then PickOf(cs[0])
    else if Eligible(cfg, open, m, cs[0]) && IsEmpty(cur.dest) then Scan(cfg, open, m, PickOf(cs[0]), cs[1..])
    else Scan(cfg, open, m, cur, cs[1..])
  }

  /** The position of the first priority hit. */
  function FirstPriority(cfg: Config, open: string, m: Message, cs: seq<Candidate>): (r: Option<nat>)
    ensures r.Some? ==> r.value < |cs| && PriorityHit(cfg, open, m, cs[r.value])
    ensures r.Some? ==> forall j :: 0 <= j < r.value ==> !PriorityHit(cfg, open, m, cs[j])
    ensures r.None? ==> forall j :: 0 <= j < |cs| ==> !PriorityHit(cfg, open, m, cs[j])
  {
    if cs == [] then None
    else if PriorityHit(cfg, open, m, cs[0]) then Some(0)
    else
      match FirstPriority(cfg, open, m, cs[1..])
      case None => None
      case Some(k) => Some(k + 1)
  }

  /** The position of the first hit with a non-empty destination. */
  function FirstPlain(cfg: Config, open: string, m: Message, cs: seq<Candidate>): (r: Option<nat>)
    ensures r.Some? ==> r.value < |cs| && PlainHit(cfg, open, m, cs[r.value])
    ensures r.Some? ==> forall j :: 0 <= j < r.value ==> !PlainHit(cfg, open, m, cs[j])
    ensures r.None? ==> forall j :: 0 <= j < |cs| ==> !PlainHit(cfg, open, m, cs[j])
  {
    if cs == [] then None
    else if PlainHit(cfg, open, m, cs[0]) then Some(0)
    else
      match FirstPlain(cfg, open, m, cs[1..])
      case None => None
      case Some(k) => Some(k + 1)
  }

  /** The winning entry, stated directly: the first priority hit if there
      is one, otherwise the first hit with a non-empty destination. */
  function Winner(cfg: Config, open: string, m: Message, cs: seq<Candidate>): Pick
  {
    match FirstPriority(cfg, open, m, cs)
    case Some(i) => PickOf(cs[i])
    case None =>
      match FirstPlain(cfg, open, m, cs)
      case Some(i) => PickOf(cs[i])
      case None => NoPick
  }

  /** What happens to one message. */
  datatype Disposition = Keep | MoveTo(dest: string, mark: string)

  /** Scope gating after the scan: an empty destination does nothing; a
      seen message is left alone by an "unread" rule and an unseen one by
      an "isread" rule; otherwise the message goes to the destination. */
  function Decide(p: Pick, seen: bool): Disposition
  {
    if IsEmpty(p.dest) then Keep
    else if seen && p.scope == "unread" then Keep
    else if !seen && p.scope == "isread" then Keep
    else MoveTo(p.dest, p.mark)
  }

  /** The disposition of message `m` against index `ix`. */
  function Evaluate(cfg: Config, open: string, ix: Index, m: Message): Disposition
  {
    Decide(Winner(cfg, open, m, Candidates(ix, Headers(cfg))), m.seen)
  }

  // ---------------------------------------------------------------------
  // The scan computes the winner

  /** Once a destination is held, only a later priority hit replaces it. */
  lemma {:induction false} ScanHeld(cfg: Config, open: string, m: Message, cur: Pick, cs: seq<Candidate>)
    requires !IsEmpty(cur.dest)
    ensures Scan(cfg, open, m, cur, cs) ==
      match FirstPriority(cfg, open, m, cs)
      case Some(i) => PickOf(cs[i])
      case None => cur
  {
    if cs != [] && !PriorityHit(cfg, open, m, cs[0]) {
      ScanHeld(cfg, open, m, cur, cs[1..]);
    }
  }

  /** From an empty destination, the scan decides as the winner does. */
  lemma {:induction false} ScanFromEmpty(cfg: Config, open: string, m: Message, cur: Pick, cs: seq<Candidate>, seen: bool)
    requires IsEmpty(cur.dest)
    ensures Decide(Scan(cfg, open, m, cur, cs), seen) == Decide(Winner(cfg, open, m, cs), seen)
    decreases cs
  {
    if cs != [] && !PriorityHit(cfg, open, m, cs[0]) {
      var c := cs[0];
      if Eligible(cfg, open, m, c) {
        if IsEmpty(PickOf(c).dest) {
          ScanFromEmpty(cfg, open, m, PickOf(c), cs[1..], seen);
        } else {
          ScanHeld(cfg, open, m, PickOf(c), cs[1..]);
        }
      } else {
        ScanFromEmpty(cfg, open, m, cur, cs[1..], seen);
      }
    }
  }

  /** The loop's result and the declarative winner give the same
      disposition. */
  lemma ScanDecidesAsWinner(cfg: Config, open: string, m: Message, cs: seq<Candidate>)
    ensures Decide(Scan(cfg, open, m, NoPick, cs), m.seen) == Decide(Winner(cfg, open, m, cs), m.seen)
  {
    ScanFromEmpty(cfg, open, m, NoPick, cs, m.seen);
  }

  /** One step of the scan. */
  lemma ScanCons(cfg: Config, open: string, m: Message, cur: Pick, c: Candidate, rest: seq<Candidate>)
    ensures Scan(cfg, open, m, cur, [c] + rest) ==
      if PriorityHit(cfg, open, m, c) then PickOf(c)
      else if Eligible(cfg, open, m, c) && IsEmpty(cur.dest) then Scan(cfg, open, m, PickOf(c), rest)
      else Scan(cfg, open, m, cur, rest)
  {
    assert ([c] + rest)[0] == c && ([c] + rest)[1..] == rest;
  }

  /** The candidates from entry `j` of a field on. */
  lemma FieldCandidatesAt(f: string, entries: OMap<string, string>, j: nat)
    requires j < |entries|
    ensures FieldCandidates(f, entries[j..]) ==
      [Candidate(f, entries[j].0, entries[j].1)] + FieldCandidates(f, entries[j + 1..])
  {
    assert entries[j..][1..] == entries[j + 1..];
  }

  /** One step of the scan over entry `j` of field `f`, followed by the
      candidates `later`. */
  lemma ScanEntry(cfg: Config, open: string, m: Message, cur: Pick, f: string, entries: OMap<string, string>, j: nat, later: seq<Candidate>)
    requires j < |entries|
    ensures var c := Candidate(f, entries[j].0, entries[j].1);
      var rest := FieldCandidates(f, entries[j + 1..]) + later;
      Scan(cfg, open, m, cur, FieldCandidates(f, entries[j..]) + later) ==
        if PriorityHit(cfg, open, m, c) then PickOf(c)
        else if Eligible(cfg, open, m, c) && IsEmpty(cur.dest) then Scan(cfg, open, m, PickOf(c), rest)
        else Scan(cfg, open, m, cur, rest)
  {
    var c := Candidate(f, entries[j].0, entries[j].1);
    var rest := FieldCandidates(f, entries[j + 1..]) + later;
    FieldCandidatesAt(f, entries, j);
    assert FieldCandidates(f, entries[j..]) + later == [c] + rest;
    ScanCons(cfg, open, m, cur, c, rest);
  }

  /** The candidates from field `i` on. */
  lemma CandidatesAt(ix: Index, headers: seq<string>, i: nat)
    requires i < |headers|
    ensures Candidates(ix, headers[i..]) ==
      FieldCandidates(headers[i], Inner(ix, headers[i])) + Candidates(ix, headers[i + 1..])
  {
    assert headers[i..][1..] == headers[i + 1..];
  }

  // ---------------------------------------------------------------------
  // Which entry wins

  /** A priority hit wins over every earlier non-priority hit and stops the
      scan: the first priority hit is the winner. */
  lemma PriorityWins(cfg: Config, open: string, m: Message, cs: seq<Candidate>, i: nat)
    requires i < |cs| && PriorityHit(cfg, open, m, cs[i])
    requires forall j :: 0 <= j < i ==> !PriorityHit(cfg, open, m, cs[j])
    ensures Winner(cfg, open, m, cs) == PickOf(cs[i])
  {
    var r := FirstPriority(cfg, open, m, cs);
    assert r.Some?;
    assert !(r.value < i) && !(i < r.value);
  }

  /** Without any priority hit, the first hit with a destination wins. */
  lemma FirstMatchWins(cfg: Config, open: string, m: Message, cs: seq<Candidate>, i: nat)
    requires forall j :: 0 <= j < |cs| ==> !PriorityHit(cfg, open, m, cs[j])
    requires i < |cs| && PlainHit(cfg, open, m, cs[i])
    requires forall j :: 0 <= j < i ==> !PlainHit(cfg, open, m, cs[j])
    ensures Winner(cfg, open, m, cs) == PickOf(cs[i])
  {
    var r := FirstPlain(cfg, open, m, cs);
    assert r.Some?;
    assert !(r.value < i) && !(i < r.value);
  }

  /** A message is never moved into the mailbox it is in, and a message
      that no entry matches stays where it is. */
  lemma NeverToOpenMailbox(cfg: Config, open: string, ix: Index, m: Message)
    ensures Evaluate(cfg, open, ix, m).MoveTo? ==> Evaluate(cfg, open, ix, m).dest != open
    ensures (forall c | c in Candidates(ix, Headers(cfg)) :: !Eligible(cfg, open, m, c)) ==>
      Evaluate(cfg, open, ix, m) == Keep
  {
  }

  /** Scope gating: an "unread" rule leaves a seen message alone, an
      "isread" rule an unseen one; in every other case (an "unread" rule
      and an unseen message, an "isread" rule and a seen one, any other
      scope) the winner's destination and mark are applied. */
  lemma ScopeGating(cfg: Config, open: string, ix: Index, m: Message)
    ensures var w := Winner(cfg, open, m, Candidates(ix, Headers(cfg)));
      && (m.seen && w.scope == "unread" ==> Evaluate(cfg, open, ix, m) == Keep)
      && (!m.seen && w.scope == "isread" ==> Evaluate(cfg, open, ix, m) == Keep)
      && (!IsEmpty(w.dest) && !(m.seen && w.scope == "unread") && !(!m.seen && w.scope == "isread") ==>
            Evaluate(cfg, open, ix, m) == MoveTo(w.dest, w.mark))
  {
  }

  /** An entry that does not match, or that points at the open mailbox,
      has no influence: removing it leaves the scan's result unchanged. */
  lemma {:induction false} IneligibleIrrelevant(cfg: Config, open: string, m: Message, cur: Pick, cs: seq<Candidate>, k: nat)
    requires k < |cs| && !Eligible(cfg, open, m, cs[k])
    ensures Scan(cfg, open, m, cur, cs) == Scan(cfg, open, m, cur, cs[..k] + cs[k + 1..])
    decreases k
  {
    var rest := cs[..k] + cs[k + 1..];
    if k == 0 {
      assert rest == cs[1..];
    } else {
      assert rest[0] == cs[0] && rest[1..] == cs[1..][..k - 1] + cs[1..][k..];
      if !PriorityHit(cfg, open, m, cs[0]) {
        var next := if Eligible(cfg, open, m, cs[0]) && IsEmpty(cur.dest) then PickOf(cs[0]) else cur;
        IneligibleIrrelevant(cfg, open, m, next, cs[1..], k - 1);
      }
    }
  }
}

=== FILE: filters.dfy ===
/**
  The plugin object during a mail listing: filters_checkmsg and the methods
  it drives (filters.php:87-157, 369-439), and the storage_init hook
  (filters.php:63-73).
 */
module Filters {
  import opened Wrappers
  import opened OrderedMaps
  import opened PhpStrings
  import opened RuleIndex
  import opened Matcher
  import opened Evaluator
  import opened Batch

  /** The plugin's per-request fields; `log` is the sequence of storage
      calls it has issued. */
  class FilterPass {
    const cfg: Config
    var openMbox: string
    var searchstring: Index
    var msgUids: map<string, seq<nat>>
    var destfolder: seq<string>
    var log: seq<StoreCall>

    constructor (cfg: Config)
      ensures this.cfg == cfg && openMbox == "" && searchstring == []
      ensures State() == Empty
    {
      this.cfg := cfg;
      openMbox := "";
      searchstring := [];
      msgUids := map[];
      destfolder := [];
      log := [];
    }

    function State(): PassState
      reads this
    {
      PassState(msgUids, destfolder, log)
    }

    /** The indexing loop of filters_checkmsg (filters.php:107-129). */
    method BuildIndex(rules: seq<Rule>, folderExists: string -> bool)
      modifies this`searchstring
      ensures searchstring == AddRules(old(searchstring), rules, openMbox, folderExists)
    {
      var i := 0;
      while i < |rules|
        invariant 0 <= i <= |rules|
        invariant searchstring == AddRules(old(searchstring), rules[..i], openMbox, folderExists)
      {
        var r := rules[i];
        assert rules[..i + 1][..i] == rules[..i];
        if folderExists(r.destfolder) && folderExists(r.srcfolder) && r.srcfolder == openMbox && r.destfolder != r.srcfolder {
          var text := HtmlEntityDecode(r.searchstring);
          var priority := r.filterpriority.GetOr("0");
          var entries := Inner(searchstring, r.whatfilter);
          entries := Put(entries, text, r.destfolder + "#" + r.messages + "#" + priority + "#" + r.markread.GetOr(""));
          searchstring := Put(searchstring, r.whatfilter, entries);
        }
        i := i + 1;
      }
      assert rules[..|rules|] == rules;
    }

    /** filters_markread: one flag call for the message's uid. */
    method MarkRead(m: Message, flag: Flag)
      modifies this`log
      ensures log == old(log) + [SetFlag(m.uid, flag)]
    {
      log := log + [SetFlag(m.uid, flag)];
    }

    /** The nested scan of filters_search (filters.php:375-405): the
        winner's destination, scope and mark. */
    method Winning(m: Message) returns (dest: string, scope: string, mark: string)
      ensures Pick(dest, scope, mark) == Scan(cfg, openMbox, m, NoPick, Candidates(searchstring, Headers(cfg)))
    {
      var headers := Headers(cfg);
      ghost var all := Candidates(searchstring, headers);
      dest, scope, mark := "", "", "";
      var i := 0;
      while i < |headers|
        invariant 0 <= i <= |headers|
        invariant Scan(cfg, openMbox, m, NoPick, all) ==
          Scan(cfg, openMbox, m, Pick(dest, scope, mark), Candidates(searchstring, headers[i..]))
      {
        var f := headers[i];
        CandidatesAt(searchstring, headers, i);
        ghost var later := Candidates(searchstring, headers[i + 1..]);
        var entries := Inner(searchstring, f);
        assert entries[0..] == entries;
        var j := 0;
        while j < |entries|
          invariant 0 <= j <= |entries|
          invariant Scan(cfg, openMbox, m, NoPick, all) ==
            Scan(cfg, openMbox, m, Pick(dest, scope, mark), FieldCandidates(f, entries[j..]) + later)
        {
          var (text, template) := entries[j];
          ScanEntry(cfg, openMbox, m, Pick(dest, scope, mark), f, entries, j, later);
          var t := Decode(template);
          var field := FieldValue(m, f);
          if SearchString(cfg, field, text) && t.dest != openMbox {
            if !IsEmpty(t.priority) {
              dest, scope, mark := t.dest, t.scope, t.mark;
              break break;
            }
            if IsEmpty(dest) {
              dest, scope, mark := t.dest, t.scope, t.mark;
            }
          }
          j := j + 1;
        }
        assert entries[|entries|..] == [];
        assert FieldCandidates(f, entries[|entries|..]) + later == later;
        i := i + 1;
      }
    }

    /** filters_search: find the winner, apply scope gating, then record
        the message under the winner's destination. */
    method Search(m: Message)
      modifies this`msgUids, this`destfolder, this`log
      ensures State() == Record(old(State()), m.uid, Evaluate(cfg, openMbox, searchstring, m))
    {
      var dest, scope, mark := Winning(m);
      ScanDecidesAsWinner(cfg, openMbox, m, Candidates(searchstring, Headers(cfg)));
      if !IsEmpty(dest) {
        if m.seen && scope == "unread" {
          return;
        }
        if !m.seen && scope == "isread" {
          return;
        }
        Accept(m, dest, mark);
      }
    }

    /** The tail of filters_search (filters.php:417-431): append the uid to
        the destination's list, list the destination once, and issue the
        flag call the mark asks for. */
    method Accept(m: Message, dest: string, mark: string)
      modifies this`msgUids, this`destfolder, this`log
      ensures State() == Record(old(State()), m.uid, MoveTo(dest, mark))
    {
      msgUids := msgUids[dest := UidsFor(msgUids, dest) + [m.uid]];
      if dest !in destfolder {
        destfolder := destfolder + [dest];
      }
      if mark == "markread" {
        MarkRead(m, Seen);
      }
      if mark == "markunread" {
        MarkRead(m, Unseen);
      }
    }

    /** The batch move of filters_checkmsg (filters.php:141-156): for each
        destination, copy its uids and move them from the open mailbox. */
    method MoveFiltered()
      modifies this`log
      ensures log == old(log) + MovePlan(destfolder, msgUids, openMbox)
    {
      var k := 0;
      while k < |destfolder|
        invariant 0 <= k <= |destfolder|
        invariant log == old(log) + MovePlan(destfolder[..k], msgUids, openMbox)
      {
        var d := destfolder[k];
        var src := UidsFor(msgUids, d);
        var uids: seq<nat> := [];
        var n := 0;
        while n < |src|
          invariant 0 <= n <= |src|
          invariant uids == src[..n]
        {
          uids := uids + [src[n]];
          n := n + 1;
        }
        assert destfolder[..k + 1][..k] == destfolder[..k];
        assert src[..|src|] == src;
        if |uids| > 0 {
          log := log + [MoveMessages(uids, d, openMbox)];
        }
        k := k + 1;
      }
      assert destfolder[..|destfolder|] == destfolder;
    }

    /** The message loop of filters_checkmsg (filters.php:136-138). */
    method SearchAll(ms: seq<Message>)
      modifies this`msgUids, this`destfolder, this`log
      ensures State() == RecordAll(old(State()), Outcomes(cfg, openMbox, searchstring, ms))
    {
      ghost var os := Outcomes(cfg, openMbox, searchstring, ms);
      for i := 0 to |ms|
        invariant State() == RecordAll(old(State()), os[..i])
      {
        RecordAllStep(old(State()), os, i);
        assert os[i] == (ms[i].uid, Evaluate(cfg, openMbox, searchstring, ms[i]));
        Search(ms[i]);
      }
      assert os[..|ms|] == os;
    }

    /** filters_checkmsg: index the stored rules for the open mailbox; stop
        when there are no rules, nothing indexed or no message list;
        otherwise search every message and move the batch. From a fresh
        object this is the pass `Pass` describes. */
    method CheckMsg(open: string, rules: seq<Rule>, folderExists: string -> bool, messages: Option<seq<Message>>)
      modifies this
      ensures openMbox == open
      ensures searchstring == AddRules(old(searchstring), rules, open, folderExists)
      ensures State() ==
        if rules == [] || searchstring == [] || messages.None? then old(State())
        else Finish(RecordAll(old(State()), Outcomes(cfg, open, searchstring, messages.value)), open)
      ensures old(State()) == Empty && old(searchstring) == [] ==>
        State() == Pass(cfg, open, folderExists, rules, messages)
    {
      openMbox := open;
      BuildIndex(rules, folderExists);
      if rules == [] || searchstring == [] || messages.None? {
        return;
      }
      SearchAll(messages.value);
      MoveFiltered();
    }
  }

  /** storage_init: the fetch-header list, extended by the configured spam
      headers in upper case when there are any, and then trimmed. */
  function StorageInit(fetchHeaders: Option<string>, spamHeaders: seq<string>): (r: string)
    ensures spamHeaders == [] ==> r == fetchHeaders.GetOr("")
    ensures spamHeaders != [] && r != [] ==> !IsTrimmed(r[0]) && !IsTrimmed(r[|r| - 1])
  {
    var base := fetchHeaders.GetOr("");
    if spamHeaders != [] then Trim(base + " " + Upper(Implode(" ", spamHeaders)))
    else base
  }

  /** A string with no whitespace at either end is its own trim. */
  lemma TrimClean(s: string)
    requires s != [] && !IsTrimmed(s[0]) && !IsTrimmed(s[|s| - 1])
    ensures Trim(s) == s
  {
  }

  /** With a clean fetch list and a clean header list, the headers are
      appended in upper case after one space; with no fetch list they are
      the whole result. */
  lemma StorageInitAppends(fetchHeaders: Option<string>, spamHeaders: seq<string>)
    requires spamHeaders != []
    requires var h := Upper(Implode(" ", spamHeaders));
      h != [] && !IsTrimmed(h[0]) && !IsTrimmed(h[|h| - 1])
    requires var b := fetchHeaders.GetOr("");
      b == [] || (!IsTrimmed(b[0]) && !IsTrimmed(b[|b| - 1]))
    ensures var h := Upper(Implode(" ", spamHeaders));
      StorageInit(fetchHeaders, spamHeaders) ==
        if fetchHeaders.GetOr("") == [] then h else fetchHeaders.GetOr("") + " " + h
  {
    var b, h := fetchHeaders.GetOr(""), Upper(Implode(" ", spamHeaders));
    var s := b + " " + h;
    if b == [] {
      assert s == [' '] + h && s[1..] == h;
      assert TrimLeft(s) == h;
      TrimClean(h);
    } else {
      assert s[0] == b[0] && s[|s| - 1] == h[|h| - 1];
      TrimClean(s);
    }
  }
}

=== FILE: matcher.dfy ===
/**
  The substring matcher, filters_searchString (filters.php:441-495), and the
  configuration the plugin reads at init.
 */
module Matcher {
  import opened PhpStrings

  /** The plugin's configuration, and the two library routines the matcher
      calls: `rcube_mime::decode_header` and `base64_decode` (whose failure
      reaches decode_header as the empty string). */
  datatype Config = Config(
    caseInsensitiveSearch: bool,
    decodeBase64Msg: bool,
    spamHeaders: seq<string>,
    decodeHeader: string -> string,
    base64Decode: string -> string)

  /** mb_stripos / mb_strpos, reduced to "found or not". */
  predicate Find(hay: string, needle: string, ci: bool)
  {
    if ci then Contains(Lower(hay), Lower(needle)) else Contains(hay, needle)
  }

  /** The needle the matcher searches for, from the index's search text. */
  function Needle(stringToSearch: string): string
  {
    AddSlashes(StripSlashes(stringToSearch))
  }

  /** The primary search: escaped decoded header against the needle. */
  predicate PrimaryMatch(cfg: Config, msg: string, stringToSearch: string)
  {
    Find(AddSlashes(cfg.decodeHeader(msg)), Needle(stringToSearch), cfg.caseInsensitiveSearch)
  }

  /** The base64 retry: the decoded base64 text, NOT escaped, against the
      escaped needle. */
  predicate Base64Match(cfg: Config, msg: string, stringToSearch: string)
  {
    Find(cfg.decodeHeader(cfg.base64Decode(msg)), Needle(stringToSearch), cfg.caseInsensitiveSearch)
  }

  /** filters_searchString: never fails; no match is false. */
  predicate SearchString(cfg: Config, msg: string, stringToSearch: string)
  {
    if PrimaryMatch(cfg, msg, stringToSearch) then true
    else cfg.decodeBase64Msg && Base64Match(cfg, msg, stringToSearch)
  }

  /** The retry runs only when the primary search failed and the option is
      on: with the option off the result is the primary search alone, and a
      primary hit is never overruled. */
  lemma RetryOnlyOnMiss(cfg: Config, msg: string, s: string)
    ensures PrimaryMatch(cfg, msg, s) ==> SearchString(cfg, msg, s)
    ensures !cfg.decodeBase64Msg ==> (SearchString(cfg, msg, s) <==> PrimaryMatch(cfg, msg, s))
    ensures SearchString(cfg, msg, s) <==>
      PrimaryMatch(cfg, msg, s) || (cfg.decodeBase64Msg && Base64Match(cfg, msg, s))
  {
  }

  /** A search text saved escaped (addslashes) is searched for as typed:
      whenever the decoded header contains the typed text (ignoring ASCII
      case in case-insensitive mode), the matcher reports a match. */
  lemma {:induction false} SavedTextMatchesAsTyped(cfg: Config, msg: string, typed: string)
    requires
      var h := cfg.decodeHeader(msg);
      if cfg.caseInsensitiveSearch then Contains(Lower(h), Lower(typed)) else Contains(h, typed)
    ensures SearchString(cfg, msg, AddSlashes(typed))
  {
    var h := cfg.decodeHeader(msg);
    StripAddSlashes(typed);
    assert Needle(AddSlashes(typed)) == AddSlashes(typed);
    if cfg.caseInsensitiveSearch {
      ContainsAddSlashes(Lower(h), Lower(typed));
      LowerAddSlashes(h);
      LowerAddSlashes(typed);
    } else {
      ContainsAddSlashes(h, typed);
    }
  }

  /** For a header and a typed text without NUL, the converse holds too:
      the primary search finds the saved text exactly when the decoded
      header contains the typed text (ignoring ASCII case in
      case-insensitive mode). */
  lemma {:induction false} PrimaryMatchAsTyped(cfg: Config, msg: string, typed: string)
    requires '\0' !in cfg.decodeHeader(msg) && '\0' !in typed
    ensures PrimaryMatch(cfg, msg, AddSlashes(typed)) <==>
      var h := cfg.decodeHeader(msg);
      if cfg.caseInsensitiveSearch then Contains(Lower(h), Lower(typed)) else Contains(h, typed)
  {
    var h := cfg.decodeHeader(msg);
    StripAddSlashes(typed);
    assert Needle(AddSlashes(typed)) == AddSlashes(typed);
    if cfg.caseInsensitiveSearch {
      LowerAddSlashes(h);
      LowerAddSlashes(typed);
      LowerKeeps(h, '\0');
      LowerKeeps(typed, '\0');
      if Contains(Lower(h), Lower(typed)) {
        ContainsAddSlashes(Lower(h), Lower(typed));
      }
      if PrimaryMatch(cfg, msg, AddSlashes(typed)) {
        ContainsEscapedOnly(Lower(h), Lower(typed));
      }
    } else {
      if Contains(h, typed) {
        ContainsAddSlashes(h, typed);
      }
      if PrimaryMatch(cfg, msg, AddSlashes(typed)) {
        ContainsEscapedOnly(h, typed);
      }
    }
  }

  function Identity(s: string): string { s }

  /** addslashes writes NUL as `\0`, so a header holding only NUL matches
      the typed text "0" although it holds no "0". */
  lemma NulMatchesZero(header: string, typed: string)
    requires header == "\0" && typed == "0"
    ensures SearchString(Config(false, false, [], Identity, Identity), header, AddSlashes(typed))
    ensures !Contains(header, typed)
  {
    AddSlashesPlain(typed);
    StripAddSlashes(typed);
    assert Needle(typed) == typed;
    assert AddSlashes(header) == ['\\', '0'];
    assert Contains(AddSlashes(header)[1..], typed);
    NotFound(header, typed, '0');
  }

  /** Case-insensitive mode ignores case and case-sensitive mode does
      not: "spam" is found in the header "SPAM" only in the former. */
  lemma CaseModes(header: string, text: string)
    requires header == "SPAM" && text == "spam"
    ensures SearchString(Config(true, false, [], Identity, Identity), header, text)
    ensures !SearchString(Config(false, false, [], Identity, Identity), header, text)
  {
    StripAddSlashes(text);
    AddSlashesPlain(text);
    AddSlashesPlain(header);
    assert Needle(text) == text;
    assert Lower("SPAM") == "spam";
    assert Lower("spam") == "spam";
    assert text <= Lower(header);
    NotFound(header, text, 's');
  }

  /** A needle holding a character the text lacks is not found in it. */
  lemma {:induction false} NotFound(hay: string, needle: string, c: char)
    requires c in needle && c !in hay
    ensures !Contains(hay, needle)
  {
    if hay != [] {
      NotFound(hay[1..], needle, c);
    }
  }

  /** The retry compares the decoded text, not escaped, with the escaped
      needle: a typed text holding a quote, double quote, backslash or NUL
      is never found by the retry in a decoded text without a backslash,
      even when that text contains the typed text; when the primary search
      also misses, the matcher reports no match. */
  lemma RetryMissesEscapedText(cfg: Config, msg: string, typed: string, k: nat)
    requires k < |typed| && NeedsSlash(typed[k])
    requires Contains(cfg.decodeHeader(cfg.base64Decode(msg)), typed)
    requires '\\' !in cfg.decodeHeader(cfg.base64Decode(msg))
    ensures !Base64Match(cfg, msg, AddSlashes(typed))
    ensures !PrimaryMatch(cfg, msg, AddSlashes(typed)) ==> !SearchString(cfg, msg, AddSlashes(typed))
  {
    var hay := cfg.decodeHeader(cfg.base64Decode(msg));
    var needle := AddSlashes(typed);
    StripAddSlashes(typed);
    assert Needle(needle) == needle;
    AddSlashesBackslash(typed, k);
    if cfg.caseInsensitiveSearch {
      LowerKeeps(hay, '\\');
      LowerKeeps(needle, '\\');
      NotFound(Lower(hay), Lower(needle), '\\');
    } else {
      NotFound(hay, needle, '\\');
    }
  }
}

=== FILE: ordered_maps.dfy ===
/**
  PHP arrays used as dictionaries: key/value pairs kept in insertion order.
  Assigning to a key that is present replaces its value where it stands;
  assigning to a new key appends it at the end.
 */
module OrderedMaps {
  import opened Wrappers

  type OMap<K, V> = seq<(K, V)>

  /** The keys, in iteration order. */
  function Keys<K, V>(m: OMap<K, V>): seq<K>
  {
    if m == [] then [] else [m[0].0] + Keys(m[1..])
  }

  /** No key occurs twice (every PHP array has this shape). */
  ghost predicate UniqueKeys<K, V>(m: OMap<K, V>)
  {
    forall i, j :: 0 <= i < j < |m| ==> m[i].0 != m[j].0
  }

  lemma {:induction false} KeysAt<K(!new), V>(m: OMap<K, V>)
    ensures |Keys(m)| == |m|
    ensures forall i :: 0 <= i < |m| ==> Keys(m)[i] == m[i].0
  {
    if m != [] {
      KeysAt(m[1..]);
    }
  }

  /** `$m[$k]` when `isset`, otherwise None. */
  function Get<K(==), V>(m: OMap<K, V>, k: K): (r: Option<V>)
    ensures r.Some? <==> k in Keys(m)
    ensures r.Some? ==> exists i :: 0 <= i < |m| && m[i] == (k, r.value)
    ensures r.None? ==> forall i :: 0 <= i < |m| ==> m[i].0 != k
  {
    if m == [] then None
    else if m[0].0 == k then Some(m[0].1)
    else
      var r := Get(m[1..], k);
      assert r.Some? ==> exists i :: 0 <= i < |m[1..]| && m[1..][i] == (k, r.value);
      assert r.Some? ==> exists i :: 1 <= i < |m| && m[i] == (k, r.value);
      r
  }

  /** `$m[$k] = $v`. */
  function Put<K(==,!new), V>(m: OMap<K, V>, k: K, v: V): (r: OMap<K, V>)
    ensures Get(r, k) == Some(v)
    ensures forall k' :: k' != k ==> Get(r, k') == Get(m, k')
    ensures k !in Keys(m) ==> r == m + [(k, v)]
  {
    if m == [] then [(k, v)]
    else if m[0].0 == k then [(k, v)] + m[1..]
    else
      var rest := Put(m[1..], k, v);
      GetCons(m[0], rest);
      AppendCons(m, (k, v));
      [m[0]] + rest
  }

  lemma AppendCons<T>(m: seq<T>, e: T)
    requires m != []
    ensures [m[0]] + (m[1..] + [e]) == m + [e]
  {
    assert m == [m[0]] + m[1..];
  }

  /** Looking up in a map with one entry in front of `t`. */
  lemma GetCons<K(!new), V>(e: (K, V), t: OMap<K, V>)
    ensures forall k :: Get([e] + t, k) == if e.0 == k then Some(e.1) else Get(t, k)
  {
    assert ([e] + t)[1..] == t;
  }

  /** Overwriting a key that is present changes that entry's value only:
      every position keeps its key, and every other entry is untouched. */
  lemma {:induction false} PutPresentInPlace<K(!new), V>(m: OMap<K, V>, k: K, v: V)
    requires UniqueKeys(m)
    requires k in Keys(m)
    ensures |Put(m, k, v)| == |m|
    ensures forall i :: 0 <= i < |m| ==>
      Put(m, k, v)[i] == (if m[i].0 == k then (k, v) else m[i])
    ensures Keys(Put(m, k, v)) == Keys(m)
  {
    KeysAt(m);
    if m[0].0 == k {
      forall i | 1 <= i < |m| ensures m[i].0 != k {
      }
    } else {
      KeysAt(m[1..]);
      assert m[1..] != [] && k in Keys(m[1..]);
      PutPresentInPlace(m[1..], k, v);
    }
    KeysAt(Put(m, k, v));
  }

  /** Putting any key keeps the keys unique. */
  lemma PutUnique<K(!new), V>(m: OMap<K, V>, k: K, v: V)
    requires UniqueKeys(m)
    ensures UniqueKeys(Put(m, k, v))
  {
    var r := Put(m, k, v);
    KeysAt(m);
    if k in Keys(m) {
      PutPresentInPlace(m, k, v);
      forall i, j | 0 <= i < j < |r| ensures r[i].0 != r[j].0 {
        assert r[i].0 == m[i].0 && r[j].0 == m[j].0;
      }
    } else {
      forall i, j | 0 <= i < j < |r| ensures r[i].0 != r[j].0 {
        assert r[i] == m[i];
        if j < |m| {
          assert r[j] == m[j];
        } else {
          assert r[j].0 == k && Keys(m)[i] == m[i].0;
        }
      }
    }
  }
}

=== FILE: php_strings.dfy ===
/**
  The PHP string built-ins the filters plugin relies on, written out on
  `seq<char>`: addslashes/stripslashes, htmlspecialchars/html_entity_decode
  (the five entities of ENT_QUOTES), trim, ASCII case folding, substring
  search (strpos/stripos), explode and implode, and empty() on strings.
 */
module PhpStrings {

  /** PHP `empty()` on a string value: "" and "0" are empty. */
  predicate IsEmpty(s: string)
  {
    s == "" || s == "0"
  }

  // ---------------------------------------------------------------------
  // addslashes / stripslashes

  /** The characters addslashes escapes. */
  predicate NeedsSlash(c: char)
  {
    c == '\'' || c == '"' || c == '\\' || c == '\0'
  }

  function SlashChar(c: char): string
  {
    if c == '\0' then ['\\', '0']
    else if NeedsSlash(c) then ['\\', c]
    else [c]
  }

  /** `addslashes`: a backslash before ', " and \, and NUL written as \0. */
  function AddSlashes(s: string): string
  {
    if s == [] then [] else SlashChar(s[0]) + AddSlashes(s[1..])
  }

  /** `stripslashes`: drops each backslash and keeps the character after it
      (\0 becomes NUL); a trailing lone backslash disappears. */
  function StripSlashes(s: string): string
  {
    if s == [] then []
    else if s[0] != '\\' then [s[0]] + StripSlashes(s[1..])
    else if |s| == 1 then []
    else [if s[1] == '0' then '\0' else s[1]] + StripSlashes(s[2..])
  }

  /** stripslashes undoes addslashes, so a text saved escaped is compared
      as it was typed. */
  lemma {:induction false} StripAddSlashes(s: string)
    ensures StripSlashes(AddSlashes(s)) == s
  {
    if s != [] {
      var rest := AddSlashes(s[1..]);
      StripAddSlashes(s[1..]);
      if NeedsSlash(s[0]) {
        assert AddSlashes(s) == SlashChar(s[0]) + rest;
        assert (SlashChar(s[0]) + rest)[2..] == rest;
      } else {
        assert AddSlashes(s) == [s[0]] + rest;
        assert ([s[0]] + rest)[1..] == rest;
      }
    }
  }

  lemma {:induction false} AddSlashesAppend(a: string, b: string)
    ensures AddSlashes(a + b) == AddSlashes(a) + AddSlashes(b)
  {
    if a != [] {
      assert (a + b)[0] == a[0] && (a + b)[1..] == a[1..] + b;
      AddSlashesAppend(a[1..], b);
      calc {
        AddSlashes(a + b);
        SlashChar(a[0]) + AddSlashes(a[1..] + b);
        SlashChar(a[0]) + (AddSlashes(a[1..]) + AddSlashes(b));
        (SlashChar(a[0]) + AddSlashes(a[1..])) + AddSlashes(b);
      }
    } else {
      assert a + b == b;
    }
  }

  /** Text without any character addslashes escapes is left as it is. */
  lemma {:induction false} AddSlashesPlain(s: string)
    requires forall i :: 0 <= i < |s| ==> !NeedsSlash(s[i])
    ensures AddSlashes(s) == s
  {
    if s != [] {
      AddSlashesPlain(s[1..]);
    }
  }

  /** An escaped string holds a backslash as soon as one character needed
      escaping. */
  lemma {:induction false} AddSlashesBackslash(s: string, k: nat)
    requires k < |s| && NeedsSlash(s[k])
    ensures '\\' in AddSlashes(s)
  {
    if k == 0 {
      assert SlashChar(s[0])[0] == '\\';
    } else {
      AddSlashesBackslash(s[1..], k - 1);
      var t := AddSlashes(s[1..]);
      var i :| 0 <= i < |t| && t[i] == '\\';
      assert AddSlashes(s)[|SlashChar(s[0])| + i] == '\\';
    }
  }

  /** Escaping never shortens a text, and lengthens it as soon as one
      character needed escaping. */
  lemma {:induction false} AddSlashesLength(s: string)
    ensures |AddSlashes(s)| >= |s|
    ensures (exists k :: 0 <= k < |s| && NeedsSlash(s[k])) ==> |AddSlashes(s)| > |s|
  {
    if s != [] {
      AddSlashesLength(s[1..]);
      if !NeedsSlash(s[0]) {
        forall k | 0 < k < |s| ensures s[k] == s[1..][k - 1] {}
      }
    }
  }

  /** The escape codes are prefix-free: when one escaped text is a prefix
      of another, the raw texts are prefixes too. */
  lemma {:induction false} AddSlashesPrefix(t: string, u: string)
    requires AddSlashes(t) <= AddSlashes(u)
    ensures t <= u
  {
    if t != [] {
      var a := SlashChar(t[0]);
      assert AddSlashes(t) == a + AddSlashes(t[1..]);
      assert u != [];
      var b := SlashChar(u[0]);
      assert AddSlashes(u) == b + AddSlashes(u[1..]);
      assert AddSlashes(t)[0] == a[0] && AddSlashes(u)[0] == b[0];
      if NeedsSlash(t[0]) {
        assert AddSlashes(t)[1] == a[1] && AddSlashes(u)[1] == b[1];
      }
      assert t[0] == u[0];
      assert AddSlashes(t[1..]) == AddSlashes(t)[|a|..];
      assert AddSlashes(u[1..]) == AddSlashes(u)[|a|..];
      AddSlashesPrefix(t[1..], u[1..]);
    }
  }

  /** An escaped NUL-free text that starts right after a lone backslash of
      an escaped text (inside the escape of a backslash) starts, in the raw
      text, with that backslash. */
  lemma {:induction false} AddSlashesAfterBackslash(t: string, g: string)
    requires '\0' !in t && '\0' !in g
    requires AddSlashes(t) <= ['\\'] + AddSlashes(g)
    ensures t <= ['\\'] + g
  {
    if t != [] {
      var rest := AddSlashes(t[1..]);
      var x, y := AddSlashes(t), ['\\'] + AddSlashes(g);
      assert x == SlashChar(t[0]) + rest;
      assert x[0] == y[0] == '\\';
      assert NeedsSlash(t[0]) && t[0] != '\0';
      assert x[1] == t[0] && |y| >= 2;
      assert g != [];
      var ag := AddSlashes(g[1..]);
      assert AddSlashes(g) == SlashChar(g[0]) + ag;
      assert y[1] == SlashChar(g[0])[0];
      assert NeedsSlash(g[0]) && t[0] == '\\';
      assert AddSlashes(g) == ['\\', g[0]] + ag;
      assert x[2..] == rest && y[2..] == [g[0]] + ag;
      assert rest <= [g[0]] + ag;
      if t[1..] != [] {
        assert rest == SlashChar(t[1]) + AddSlashes(t[2..]);
        assert rest[0] == SlashChar(t[1])[0] == g[0];
        assert g[0] == '\\';
        AddSlashesAfterBackslash(t[1..], g[1..]);
        assert g == ['\\'] + g[1..];
      }
    }
  }

  /** Without NUL on either side, an escaped needle is found in an escaped
      text only where the raw needle occurs in the raw text. */
  lemma {:induction false} ContainsEscapedOnly(hay: string, needle: string)
    requires '\0' !in hay && '\0' !in needle
    requires Contains(AddSlashes(hay), AddSlashes(needle))
    ensures Contains(hay, needle)
  {
    var h, n := AddSlashes(hay), AddSlashes(needle);
    if n <= h {
      AddSlashesPrefix(needle, hay);
    } else {
      var rest := AddSlashes(hay[1..]);
      assert h == SlashChar(hay[0]) + rest;
      if !NeedsSlash(hay[0]) {
        assert h[1..] == rest;
        ContainsEscapedOnly(hay[1..], needle);
      } else {
        assert h[1..] == [hay[0]] + rest;
        if n <= [hay[0]] + rest {
          assert needle != [];
          assert n == SlashChar(needle[0]) + AddSlashes(needle[1..]);
          assert n[0] == SlashChar(needle[0])[0] == hay[0];
          assert hay[0] == '\\';
          AddSlashesAfterBackslash(needle, hay[1..]);
          assert hay == ['\\'] + hay[1..];
        } else {
          assert ([hay[0]] + rest)[1..] == rest;
          ContainsEscapedOnly(hay[1..], needle);
        }
      }
    }
  }

  // ---------------------------------------------------------------------
  // Case folding

  function LowerChar(c: char): char
  {
    if 'A' <= c <= 'Z' then (c as int + 32) as char else c
  }

  function UpperChar(c: char): char
  {
    if 'a' <= c <= 'z' then (c as int - 32) as char else c
  }

  /** strtolower / the folding of stripos, on ASCII letters. */
  function Lower(s: string): string
  {
    if s == [] then [] else [LowerChar(s[0])] + Lower(s[1..])
  }

  /** strtoupper, on ASCII letters. */
  function Upper(s: string): string
  {
    if s == [] then [] else [UpperChar(s[0])] + Upper(s[1..])
  }

  /** strtoupper keeps the length, maps each of a-z to the letter 32 code
      points below it, and keeps every other character. */
  lemma {:induction false} UpperChars(s: string)
    ensures |Upper(s)| == |s|
    ensures forall i :: 0 <= i < |s| && 'a' <= s[i] <= 'z' ==> Upper(s)[i] as int == s[i] as int - 32
    ensures forall i :: 0 <= i < |s| && !('a' <= s[i] <= 'z') ==> Upper(s)[i] == s[i]
  {
    if s != [] {
      UpperChars(s[1..]);
      assert forall i :: 1 <= i < |s| ==> Upper(s)[i] == Upper(s[1..])[i - 1] && s[i] == s[1..][i - 1];
    }
  }

  /** The same for lower-casing: A-Z move 32 code points up, every other
      character is kept. */
  lemma {:induction false} LowerChars(s: string)
    ensures |Lower(s)| == |s|
    ensures forall i :: 0 <= i < |s| && 'A' <= s[i] <= 'Z' ==> Lower(s)[i] as int == s[i] as int + 32
    ensures forall i :: 0 <= i < |s| && !('A' <= s[i] <= 'Z') ==> Lower(s)[i] == s[i]
  {
    if s != [] {
      LowerChars(s[1..]);
      assert forall i :: 1 <= i < |s| ==> Lower(s)[i] == Lower(s[1..])[i - 1] && s[i] == s[1..][i - 1];
    }
  }

  lemma {:induction false} LowerAppend(a: string, b: string)
    ensures Lower(a + b) == Lower(a) + Lower(b)
  {
    if a != [] {
      assert (a + b)[0] == a[0] && (a + b)[1..] == a[1..] + b;
      LowerAppend(a[1..], b);
      calc {
        Lower(a + b);
        [LowerChar(a[0])] + Lower(a[1..] + b);
        [LowerChar(a[0])] + (Lower(a[1..]) + Lower(b));
        ([LowerChar(a[0])] + Lower(a[1..])) + Lower(b);
      }
    } else {
      assert a + b == b;
    }
  }

  /** Case folding neither adds nor removes a character that is not an
      ASCII letter (a backslash, NUL, a quote). */
  lemma {:induction false} LowerKeeps(s: string, c: char)
    requires !('A' <= c <= 'Z' || 'a' <= c <= 'z')
    ensures c in Lower(s) <==> c in s
  {
    if s != [] {
      LowerKeeps(s[1..], c);
      assert s == [s[0]] + s[1..];
    }
  }

  /** Folding case and escaping commute: the escaped characters are not
      letters. */
  lemma {:induction false} LowerAddSlashes(s: string)
    ensures Lower(AddSlashes(s)) == AddSlashes(Lower(s))
  {
    if s != [] {
      LowerAppend(SlashChar(s[0]), AddSlashes(s[1..]));
      LowerAddSlashes(s[1..]);
      assert Lower(SlashChar(s[0])) == SlashChar(LowerChar(s[0]));
    }
  }

  // ---------------------------------------------------------------------
  // Substring search

  /** `strpos($hay, $needle) !== false` (PHP 8: the empty needle is found
      at offset 0). */
  predicate Contains(hay: string, needle: string)
  {
    needle <= hay || (hay != [] && Contains(hay[1..], needle))
  }

  lemma {:induction false} ContainsAfterPrefix(p: string, hay: string, needle: string)
    requires Contains(hay, needle)
    ensures Contains(p + hay, needle)
  {
    if p != [] {
      assert (p + hay)[1..] == p[1..] + hay;
      ContainsAfterPrefix(p[1..], hay, needle);
      assert Contains((p + hay)[1..], needle);
    } else {
      assert p + hay == hay;
    }
  }

  lemma PrefixAddSlashes(hay: string, needle: string)
    requires needle <= hay
    ensures AddSlashes(needle) <= AddSlashes(hay)
  {
    assert hay == needle + hay[|needle|..];
    AddSlashesAppend(needle, hay[|needle|..]);
  }

  /** Escaping both sides keeps every occurrence: a needle found in the
      raw text is found in the escaped text. */
  lemma {:induction false} ContainsAddSlashes(hay: string, needle: string)
    requires Contains(hay, needle)
    ensures Contains(AddSlashes(hay), AddSlashes(needle))
  {
    if needle <= hay {
      PrefixAddSlashes(hay, needle);
    } else {
      ContainsAddSlashes(hay[1..], needle);
      ContainsAfterPrefix(SlashChar(hay[0]), AddSlashes(hay[1..]), AddSlashes(needle));
    }
  }

  // ---------------------------------------------------------------------
  // htmlspecialchars / html_entity_decode

  function EntityOf(c: char): string
  {
    if c == '&' then "&amp;"
    else if c == '<' then "&lt;"
    else if c == '>' then "&gt;"
    else if c == '"' then "&quot;"
    else if c == '\'' then "&#039;"
    else [c]
  }

  /** `htmlspecialchars` with ENT_QUOTES. */
  function HtmlSpecialChars(s: string): string
  {
    if s == [] then [] else EntityOf(s[0]) + HtmlSpecialChars(s[1..])
  }

  /** `html_entity_decode` restricted to the five entities above; any other
      `&` is kept as it is. */
  function HtmlEntityDecode(s: string): string
  {
    if s == [] then []
    else if "&amp;" <= s then "&" + HtmlEntityDecode(s[5..])
    else if "&lt;" <= s then "<" + HtmlEntityDecode(s[4..])
    else if "&gt;" <= s then ">" + HtmlEntityDecode(s[4..])
    else if "&quot;" <= s then "\"" + HtmlEntityDecode(s[6..])
    else if "&#039;" <= s then "'" + HtmlEntityDecode(s[6..])
    else [s[0]] + HtmlEntityDecode(s[1..])
  }

  lemma DecodeEntityStep(c: char, rest: string)
    ensures HtmlEntityDecode(EntityOf(c) + rest) == [c] + HtmlEntityDecode(rest)
  {
    var s := EntityOf(c) + rest;
    if c == '&' {
      assert "&amp;" <= s && s[5..] == rest;
    } else if c == '<' {
      assert s[1] == 'l';
      assert !("&amp;" <= s) && "&lt;" <= s && s[4..] == rest;
    } else if c == '>' {
      assert s[1] == 'g';
      assert !("&amp;" <= s) && !("&lt;" <= s) && "&gt;" <= s && s[4..] == rest;
    } else if c == '"' {
      assert s[1] == 'q';
      assert !("&amp;" <= s) && !("&lt;" <= s) && !("&gt;" <= s);
      assert "&quot;" <= s && s[6..] == rest;
    } else if c == '\'' {
      assert s[1] == '#';
      assert !("&amp;" <= s) && !("&lt;" <= s) && !("&gt;" <= s) && !("&quot;" <= s);
      assert "&#039;" <= s && s[6..] == rest;
    } else {
      assert s == [c] + rest && s[0] == c && s[1..] == rest;
      assert !("&amp;" <= s) && !("&lt;" <= s) && !("&gt;" <= s);
      assert !("&quot;" <= s) && !("&#039;" <= s);
    }
  }

  /** Decoding what htmlspecialchars produced gives the text back. */
  lemma {:induction false} HtmlRoundTrip(s: string)
    ensures HtmlEntityDecode(HtmlSpecialChars(s)) == s
  {
    if s != [] {
      DecodeEntityStep(s[0], HtmlSpecialChars(s[1..]));
      HtmlRoundTrip(s[1..]);
    }
  }

  // ---------------------------------------------------------------------
  // trim

  /** The characters PHP's trim removes by default. */
  predicate IsTrimmed(c: char)
  {
    c == ' ' || c == '\t' || c == '\n' || c == '\r' || c == '\0' || c == 11 as char
  }

  function TrimLeft(s: string): (r: string)
    ensures |r| <= |s| && r == s[|s| - |r|..]
    ensures forall i :: 0 <= i < |s| - |r| ==> IsTrimmed(s[i])
    ensures r != [] ==> !IsTrimmed(r[0])
  {
    if s != [] && IsTrimmed(s[0]) then TrimLeft(s[1..]) else s
  }

  function TrimRight(s: string): (r: string)
    ensures |r| <= |s| && r == s[..|r|]
    ensures forall i :: |r| <= i < |s| ==> IsTrimmed(s[i])
    ensures r != [] ==> !IsTrimmed(r[|r| - 1])
  {
    if s != [] && IsTrimmed(s[|s| - 1]) then TrimRight(s[..|s| - 1]) else s
  }

  /** `trim`: strips whitespace and NUL from both ends. The result is empty
      exactly when every character was whitespace, and otherwise it neither
      starts nor ends with whitespace. */
  function Trim(s: string): (r: string)
    ensures r == [] <==> forall i :: 0 <= i < |s| ==> IsTrimmed(s[i])
    ensures r != [] ==> !IsTrimmed(r[0]) && !IsTrimmed(r[|r| - 1])
    ensures exists a: nat :: TrimmedSlice(s, r, a)
  {
    TrimEmpty(s);
    TrimMiddle(s);
    TrimRight(TrimLeft(s))
  }

  lemma TrimEmpty(s: string)
    ensures var r := TrimRight(TrimLeft(s));
      (r == [] <==> forall i :: 0 <= i < |s| ==> IsTrimmed(s[i])) &&
      (r != [] ==> !IsTrimmed(r[0]) && !IsTrimmed(r[|r| - 1]))
  {
    var l := TrimLeft(s);
    var r := TrimRight(l);
    if l != [] {
      assert !IsTrimmed(l[0]) && l[0] == s[|s| - |l|];
      assert r != [] && r[0] == l[0];
    }
  }

  /** `r` is `s` with `a` characters cut from the front and the rest from
      the back, every cut character whitespace or NUL. */
  predicate TrimmedSlice(s: string, r: string, a: nat)
  {
    && a + |r| <= |s| && r == s[a..a + |r|]
    && (forall i :: 0 <= i < a ==> IsTrimmed(s[i]))
    && (forall i :: a + |r| <= i < |s| ==> IsTrimmed(s[i]))
  }

  /** What both ends strip: the result is the slice of `s` between a
      trimmed prefix and a trimmed suffix. */
  lemma TrimMiddle(s: string)
    ensures TrimmedSlice(s, TrimRight(TrimLeft(s)), |s| - |TrimLeft(s)|)
  {
    var l := TrimLeft(s);
    var r := TrimRight(l);
    var a := |s| - |l|;
    forall i | a + |r| <= i < |s| ensures IsTrimmed(s[i]) {
      assert s[i] == l[i - a];
    }
    assert r == s[a..a + |r|];
  }

  // ---------------------------------------------------------------------
  // explode / implode

  /** `explode($sep, $s)`: the pieces between separators; never empty. */
  function Explode(s: string, sep: char): (r: seq<string>)
    ensures |r| >= 1
    ensures sep !in s ==> r == [s]
  {
    if s == [] then [""]
    else
      var rest := Explode(s[1..], sep);
      if s[0] == sep then [""] + rest
      else
        assert sep !in s ==> sep !in s[1..] && [s[0]] + s[1..] == s;
        [[s[0]] + rest[0]] + rest[1..]
  }

  /** A piece without separator, then a separator, is split off whole. */
  lemma {:induction false} ExplodeCons(a: string, sep: char, b: string)
    requires sep !in a
    ensures Explode(a + [sep] + b, sep) == [a] + Explode(b, sep)
  {
    if a == [] {
      assert [sep] + b == a + [sep] + b;
      assert ([sep] + b)[1..] == b;
    } else {
      assert (a + [sep] + b)[1..] == a[1..] + [sep] + b;
      ExplodeCons(a[1..], sep, b);
      assert [a[0]] + a[1..] == a;
    }
  }

  /** `implode($glue, $xs)`. */
  function Implode(glue: string, xs: seq<string>): string
  {
    if xs == [] then ""
    else if |xs| == 1 then xs[0]
    else xs[0] + glue + Implode(glue, xs[1..])
  }

  /** Adding a piece at the end adds the glue and that piece. */
  lemma {:induction false} ImplodeSnoc(glue: string, xs: seq<string>, x: string)
    requires xs != []
    ensures Implode(glue, xs + [x]) == Implode(glue, xs) + glue + x
  {
    if |xs| > 1 {
      assert (xs + [x])[1..] == xs[1..] + [x];
      ImplodeSnoc(glue, xs[1..], x);
    } else {
      assert (xs + [x])[1..] == [x];
    }
  }
}

=== FILE: rule_index.dfy ===
/**
  The stored filter rules and the per-pass search index built from them
  (filters.php, filters_checkmsg, lines 107-129): field -> search text ->
  "dest#messages#filterpriority#markread".
 */
module RuleIndex {
  import opened Wrappers
  import opened OrderedMaps
  import opened PhpStrings

  /** One stored filter, as the user preferences hold it. Rules added by the
      spam bootstrap carry no `filterpriority` and no `markread`. */
  datatype Rule = Rule(
    whatfilter: string,
    searchstring: string,
    srcfolder: string,
    destfolder: string,
    messages: string,
    filterpriority: Option<string>,
    markread: Option<string>)

  /** The disposition carried by an index entry, as a record. */
  datatype Template = Template(dest: string, scope: string, priority: string, mark: string)

  // ---------------------------------------------------------------------
  // The '#'-joined template

  function Encode(t: Template): string
  {
    t.dest + "#" + t.scope + "#" + t.priority + "#" + t.mark
  }

  /** `$arr[$i]` after explode; a missing piece reads as "". */
  function Piece(ps: seq<string>, i: nat): string
  {
    if i < |ps| then ps[i] else ""
  }

  /** `explode('#', $dest)` and its first four pieces. */
  function Decode(s: string): Template
  {
    var ps := Explode(s, '#');
    Template(Piece(ps, 0), Piece(ps, 1), Piece(ps, 2), Piece(ps, 3))
  }

  predicate HashFree(t: Template)
  {
    '#' !in t.dest && '#' !in t.scope && '#' !in t.priority && '#' !in t.mark
  }

  /** The template splits back into its four fields when none holds '#'. */
  lemma DecodeEncode(t: Template)
    requires HashFree(t)
    ensures Decode(Encode(t)) == t
  {
    var tail3 := t.priority + "#" + t.mark;
    var tail2 := t.scope + "#" + tail3;
    assert Encode(t) == t.dest + ['#'] + tail2;
    assert tail2 == t.scope + ['#'] + tail3;
    assert tail3 == t.priority + ['#'] + t.mark;
    ExplodeCons(t.dest, '#', tail2);
    ExplodeCons(t.scope, '#', tail3);
    ExplodeCons(t.priority, '#', t.mark);
    assert Explode(Encode(t), '#') == [t.dest, t.scope, t.priority, t.mark];
  }

  /** A destination folder whose name holds '#' is split apart: the rule
      for folder "Projects#2" with scope "all" and no priority is read back
      as destination "Projects" with the non-empty priority "all". */
  lemma HashInFolderMisread()
    ensures var t := Decode(Encode(Template("Projects#2", "all", "0", "none")));
      t.dest == "Projects" && t.scope == "2" && !IsEmpty(t.priority)
  {
    var e := Encode(Template("Projects#2", "all", "0", "none"));
    assert e == "Projects" + ['#'] + ("2" + ['#'] + ("all" + ['#'] + ("0" + ['#'] + "none")));
    ExplodeCons("Projects", '#', "2" + ['#'] + ("all" + ['#'] + ("0" + ['#'] + "none")));
    ExplodeCons("2", '#', "all" + ['#'] + ("0" + ['#'] + "none"));
    ExplodeCons("all", '#', "0" + ['#'] + "none");
    ExplodeCons("0", '#', "none");
  }

  // ---------------------------------------------------------------------
  // Building the index

  /** The template a qualifying rule contributes (a missing priority reads
      as 0, a missing markread concatenates as ""). */
  function TemplateOf(r: Rule): Template
  {
    Template(r.destfolder, r.messages, r.filterpriority.GetOr("0"), r.markread.GetOr(""))
  }

  /** The search text as the index keys it. */
  function IndexKey(r: Rule): string
  {
    HtmlEntityDecode(r.searchstring)
  }

  /** Both folders exist, the source is the open mailbox, and the
      destination differs from the source. */
  predicate Qualifies(r: Rule, open: string, folderExists: string -> bool)
  {
    && folderExists(r.destfolder)
    && folderExists(r.srcfolder)
    && r.srcfolder == open
    && r.destfolder != r.srcfolder
  }

  /** field -> search text -> encoded template. */
  type Index = OMap<string, OMap<string, string>>

  /** `$this->searchstring[$field]`, or no entries when it is not set. */
  function Inner(ix: Index, field: string): OMap<string, string>
  {
    Get(ix, field).GetOr([])
  }

  /** `$this->searchstring[$field][$text]`, when set. */
  function Lookup(ix: Index, field: string, text: string): Option<string>
  {
    Get(Inner(ix, field), text)
  }

  /** `$this->searchstring[$field][$text] = $v`. */
  function Assign(ix: Index, field: string, text: string, v: string): Index
  {
    Put(ix, field, Put(Inner(ix, field), text, v))
  }

  /** One iteration of the indexing loop. */
  function AddRule(ix: Index, r: Rule, open: string, folderExists: string -> bool): Index
  {
    if Qualifies(r, open, folderExists)
    then Assign(ix, r.whatfilter, IndexKey(r), Encode(TemplateOf(r)))
    else ix
  }

  /** The indexing loop over the stored rules, in order. */
  function AddRules(ix: Index, rules: seq<Rule>, open: string, folderExists: string -> bool): Index
  {
    if rules == [] then ix
    else AddRule(AddRules(ix, rules[..|rules| - 1], open, folderExists), rules[|rules| - 1], open, folderExists)
  }

  ghost predicate WellFormed(ix: Index)
  {
    UniqueKeys(ix) && forall i :: 0 <= i < |ix| ==> UniqueKeys(ix[i].1)
  }

  lemma LookupAssign(ix: Index, f: string, t: string, v: string, f': string, t': string)
    ensures Lookup(Assign(ix, f, t, v), f', t') ==
      if f' == f && t' == t then Some(v) else Lookup(ix, f', t')
  {
  }

  /** A rule that does not qualify leaves the index as it was. */
  lemma {:induction false} NothingQualifiesNoChange(ix: Index, rules: seq<Rule>, open: string, folderExists: string -> bool)
    requires forall i :: 0 <= i < |rules| ==> !Qualifies(rules[i], open, folderExists)
    ensures AddRules(ix, rules, open, folderExists) == ix
  {
    if rules != [] {
      NothingQualifiesNoChange(ix, rules[..|rules| - 1], open, folderExists);
    }
  }

  predicate KeyedAt(rules: seq<Rule>, i: nat, open: string, folderExists: string -> bool, f: string, t: string)
    requires i < |rules|
  {
    Qualifies(rules[i], open, folderExists) && rules[i].whatfilter == f && IndexKey(rules[i]) == t
  }

  /** The position of the last qualifying rule with key (f, t). */
  function LastKeyed(rules: seq<Rule>, open: string, folderExists: string -> bool, f: string, t: string): (r: Option<nat>)
    ensures r.Some? ==> r.value < |rules| && KeyedAt(rules, r.value, open, folderExists, f, t)
    ensures r.Some? ==> forall j :: r.value < j < |rules| ==> !KeyedAt(rules, j, open, folderExists, f, t)
    ensures r.None? ==> forall j :: 0 <= j < |rules| ==> !KeyedAt(rules, j, open, folderExists, f, t)
  {
    if rules == [] then None
    else if KeyedAt(rules, |rules| - 1, open, folderExists, f, t) then Some(|rules| - 1)
    else
      var r := LastKeyed(rules[..|rules| - 1], open, folderExists, f, t);
      assert forall j :: 0 <= j < |rules| - 1 ==>
        (KeyedAt(rules, j, open, folderExists, f, t) <==> KeyedAt(rules[..|rules| - 1], j, open, folderExists, f, t));
      r
  }

  /** Last write wins: the entry for (f, t) is the template of the last
      qualifying rule with that field and search text; with none, the entry
      is whatever the index held before. */
  lemma {:induction false} IndexLookup(ix: Index, rules: seq<Rule>, open: string, folderExists: string -> bool, f: string, t: string)
    ensures Lookup(AddRules(ix, rules, open, folderExists), f, t) ==
      match LastKeyed(rules, open, folderExists, f, t)
      case Some(i) => Some(Encode(TemplateOf(rules[i])))
      case None => Lookup(ix, f, t)
  {
    if rules != [] {
      var init := rules[..|rules| - 1];
      var last := rules[|rules| - 1];
      IndexLookup(ix, init, open, folderExists, f, t);
      var before := AddRules(ix, init, open, folderExists);
      if Qualifies(last, open, folderExists) {
        LookupAssign(before, last.whatfilter, IndexKey(last), Encode(TemplateOf(last)), f, t);
      }
      assert forall j :: 0 <= j < |init| ==>
        (KeyedAt(rules, j, open, folderExists, f, t) <==> KeyedAt(init, j, open, folderExists, f, t));
    }
  }

  /** Starting from an empty index, (f, t) is indexed exactly when some
      stored rule with that field and search text qualifies. */
  lemma IndexedIffQualifying(rules: seq<Rule>, open: string, folderExists: string -> bool, f: string, t: string)
    ensures Lookup(AddRules([], rules, open, folderExists), f, t).Some? <==>
      exists i :: 0 <= i < |rules| && KeyedAt(rules, i, open, folderExists, f, t)
  {
    IndexLookup([], rules, open, folderExists, f, t);
  }

  lemma AssignWellFormed(ix: Index, f: string, t: string, v: string)
    requires WellFormed(ix)
    ensures WellFormed(Assign(ix, f, t, v))
  {
    var inner := Inner(ix, f);
    if Get(ix, f).Some? {
      var i :| 0 <= i < |ix| && ix[i] == (f, inner);
    }
    var inner' := Put(inner, t, v);
    PutUnique(inner, t, v);
    PutUnique(ix, f, inner');
    KeysAt(ix);
    if f in Keys(ix) {
      PutPresentInPlace(ix, f, inner');
    }
  }

  lemma {:induction false} AddRulesWellFormed(ix: Index, rules: seq<Rule>, open: string, folderExists: string -> bool)
    requires WellFormed(ix)
    ensures WellFormed(AddRules(ix, rules, open, folderExists))
  {
    if rules != [] {
      var init := rules[..|rules| - 1];
      var last := rules[|rules| - 1];
      AddRulesWellFormed(ix, init, open, folderExists);
      if Qualifies(last, open, folderExists) {
        AssignWellFormed(AddRules(ix, init, open, folderExists), last.whatfilter, IndexKey(last), Encode(TemplateOf(last)));
      }
    }
  }

  /** A later qualifying rule whose field and search text are already
      indexed overwrites that entry where it stands: the order of the fields
      and of every field's search texts is unchanged. */
  lemma OverwriteInPlace(ix: Index, r: Rule, open: string, folderExists: string -> bool)
    requires WellFormed(ix)
    requires Qualifies(r, open, folderExists)
    requires Lookup(ix, r.whatfilter, IndexKey(r)).Some?
    ensures Keys(AddRule(ix, r, open, folderExists)) == Keys(ix)
    ensures forall f :: Keys(Inner(AddRule(ix, r, open, folderExists), f)) == Keys(Inner(ix, f))
    ensures Lookup(AddRule(ix, r, open, folderExists), r.whatfilter, IndexKey(r)) == Some(Encode(TemplateOf(r)))
  {
    var f0, t0, v := r.whatfilter, IndexKey(r), Encode(TemplateOf(r));
    var inner := Inner(ix, f0);
    var i :| 0 <= i < |ix| && ix[i] == (f0, inner);
    KeysAt(ix);
    PutPresentInPlace(inner, t0, v);
    PutPresentInPlace(ix, f0, Put(inner, t0, v));
    LookupAssign(ix, f0, t0, v, f0, t0);
  }
}

=== FILE: rule_store.dfy ===
/**
  The stored filter list in the user preferences and the three operations
  that change it: filters_save (filters.php:167-202), filters_delete
  (filters.php:205-232) and filters_addMoveSpamRule (filters.php:497-538).
 */
module RuleStore {
  import opened Wrappers
  import opened OrderedMaps
  import opened PhpStrings
  import opened RuleIndex
  import opened Matcher

  /** The seven POST fields of the save form, as received. */
  datatype SaveRequest = SaveRequest(
    searchstring: string,
    srcfolders: string,
    folders: string,
    whatfilter: string,
    messages: string,
    checkbox: string,
    markread: string)

  datatype SaveOutcome = NoSearchString | Saved | NotSaved

  datatype DeleteOutcome = NoRequest | Deleted | NotDeleted

  /** The rule a save request produces: every field trimmed; none when the
      trimmed search text is empty; the search text escaped with addslashes
      and then htmlspecialchars, the folders with addslashes. */
  function NewRule(req: SaveRequest): (r: Option<Rule>)
    ensures r.None? <==> forall i :: 0 <= i < |req.searchstring| ==> IsTrimmed(req.searchstring[i])
    ensures r.Some? ==> StripSlashes(HtmlEntityDecode(r.value.searchstring)) == Trim(req.searchstring)
    ensures r.Some? ==> StripSlashes(r.value.srcfolder) == Trim(req.srcfolders)
    ensures r.Some? ==> StripSlashes(r.value.destfolder) == Trim(req.folders)
    ensures r.Some? ==> r.value.searchstring == HtmlSpecialChars(AddSlashes(Trim(req.searchstring)))
    ensures r.Some? ==> r.value.srcfolder == AddSlashes(Trim(req.srcfolders)) && r.value.destfolder == AddSlashes(Trim(req.folders))
    ensures r.Some? ==> r.value.whatfilter == Trim(req.whatfilter) && r.value.messages == Trim(req.messages)
    ensures r.Some? ==> r.value.filterpriority == Some(Trim(req.checkbox)) && r.value.markread == Some(Trim(req.markread))
  {
    var search := Trim(req.searchstring);
    if search == "" then None
    else
      HtmlRoundTrip(AddSlashes(search));
      StripAddSlashes(search);
      StripAddSlashes(Trim(req.srcfolders));
      StripAddSlashes(Trim(req.folders));
      Some(Rule(
        Trim(req.whatfilter),
        HtmlSpecialChars(AddSlashes(search)),
        AddSlashes(Trim(req.srcfolders)),
        AddSlashes(Trim(req.folders)),
        Trim(req.messages),
        Some(Trim(req.checkbox)),
        Some(Trim(req.markread))))
  }

  /** A saved rule, once indexed, matches every header holding the text
      as it was typed (trimmed), ignoring ASCII case in case-insensitive
      mode. */
  lemma SavedRuleMatchesTyped(cfg: Config, msg: string, req: SaveRequest)
    requires NewRule(req).Some?
    requires
      var h, typed := cfg.decodeHeader(msg), Trim(req.searchstring);
      if cfg.caseInsensitiveSearch then Contains(Lower(h), Lower(typed)) else Contains(h, typed)
    ensures SearchString(cfg, msg, IndexKey(NewRule(req).value))
  {
    var typed := Trim(req.searchstring);
    HtmlRoundTrip(AddSlashes(typed));
    assert IndexKey(NewRule(req).value) == AddSlashes(typed);
    SavedTextMatchesAsTyped(cfg, msg, typed);
  }

  /** For a header and a typed text without NUL, the primary search finds a
      saved rule's index key exactly when the header holds the text as
      typed (trimmed). */
  lemma SavedRulePrimaryAsTyped(cfg: Config, msg: string, req: SaveRequest)
    requires NewRule(req).Some?
    requires '\0' !in cfg.decodeHeader(msg) && '\0' !in Trim(req.searchstring)
    ensures
      var h, typed := cfg.decodeHeader(msg), Trim(req.searchstring);
      PrimaryMatch(cfg, msg, IndexKey(NewRule(req).value)) <==>
        if cfg.caseInsensitiveSearch then Contains(Lower(h), Lower(typed)) else Contains(h, typed)
  {
    var typed := Trim(req.searchstring);
    HtmlRoundTrip(AddSlashes(typed));
    assert IndexKey(NewRule(req).value) == AddSlashes(typed);
    PrimaryMatchAsTyped(cfg, msg, typed);
  }

  /** A source folder holding a quote, double quote, backslash or NUL is
      stored escaped, so the rule never qualifies in the mailbox the user
      chose as its source. */
  lemma QuotedSourceNeverQualifies(req: SaveRequest, k: nat, folderExists: string -> bool)
    requires NewRule(req).Some?
    requires k < |Trim(req.srcfolders)| && NeedsSlash(Trim(req.srcfolders)[k])
    ensures !Qualifies(NewRule(req).value, Trim(req.srcfolders), folderExists)
  {
    AddSlashesLength(Trim(req.srcfolders));
  }

  // ---------------------------------------------------------------------
  // Keys

  /** The key `$a[] = ...` uses: one more than the largest key, 0 when
      there is none. */
  function NextKey(m: OMap<nat, Rule>): (r: nat)
    ensures forall i :: 0 <= i < |m| ==> m[i].0 < r
    ensures r == 0 || exists i :: 0 <= i < |m| && m[i].0 == r - 1
  {
    if m == [] then 0
    else
      var k := NextKey(m[1..]);
      assert forall i :: 1 <= i < |m| ==> m[i] == m[1..][i - 1];
      if m[0].0 + 1 > k then m[0].0 + 1 else k
  }

  /** `$a[] = $rule`. */
  function Append(m: OMap<nat, Rule>, rule: Rule): OMap<nat, Rule>
  {
    m + [(NextKey(m), rule)]
  }

  /** Appending keeps every stored rule under its key and in its place,
      adds the new rule last under a fresh key, and keeps keys unique. */
  lemma AppendFresh(m: OMap<nat, Rule>, rule: Rule)
    requires UniqueKeys(m)
    ensures var a := Append(m, rule);
      && |a| == |m| + 1 && a[..|m|] == m && a[|m|] == (NextKey(m), rule)
      && NextKey(m) !in Keys(m)
      && UniqueKeys(a)
  {
    KeysAt(m);
    var a := Append(m, rule);
    assert a[..|m|] == m;
  }

  // ---------------------------------------------------------------------
  // Delete

  /** A slot of the filter array during delete: a rule, or the '' that
      marks the rule to drop. */
  datatype Slot = Blank | Filled(rule: Rule)

  function Lift(m: OMap<nat, Rule>): (r: OMap<nat, Slot>)
    ensures |r| == |m|
  {
    if m == [] then [] else [(m[0].0, Filled(m[0].1))] + Lift(m[1..])
  }

  /** `array_diff($slots, [''])`: the rules, under their keys, in order. */
  function Kept(slots: OMap<nat, Slot>): OMap<nat, Rule>
  {
    if slots == [] then []
    else if slots[0].1.Blank? then Kept(slots[1..])
    else [(slots[0].0, slots[0].1.rule)] + Kept(slots[1..])
  }

  /** The rules under keys other than `k`, in order. */
  function RemoveKey(m: OMap<nat, Rule>, k: nat): (r: OMap<nat, Rule>)
    ensures Get(r, k).None?
    ensures forall k' :: k' != k ==> Get(r, k') == Get(m, k')
  {
    if m == [] then []
    else if m[0].0 == k then RemoveKey(m[1..], k)
    else [m[0]] + RemoveKey(m[1..], k)
  }

  lemma {:induction false} RemoveAbsent(m: OMap<nat, Rule>, k: nat)
    requires k !in Keys(m)
    ensures RemoveKey(m, k) == m
  {
    if m != [] {
      RemoveAbsent(m[1..], k);
    }
  }

  /** Removing the key at position `p` drops exactly that entry: every
      other rule keeps its key and its order. */
  lemma {:induction false} RemoveKeyAt(m: OMap<nat, Rule>, p: nat)
    requires UniqueKeys(m) && p < |m|
    ensures RemoveKey(m, m[p].0) == m[..p] + m[p + 1..]
  {
    KeysAt(m);
    KeysAt(m[1..]);
    if p == 0 {
      assert m[0].0 !in Keys(m[1..]);
      RemoveAbsent(m[1..], m[0].0);
    } else {
      assert m[1..][p - 1] == m[p];
      RemoveKeyAt(m[1..], p - 1);
      assert m[..p] == [m[0]] + m[1..][..p - 1];
      assert m[p + 1..] == m[1..][p..];
    }
  }

  lemma KeptAt(slots: OMap<nat, Slot>, i: nat)
    requires i < |slots|
    ensures Kept(slots[i..]) ==
      (if slots[i].1.Blank? then [] else [(slots[i].0, slots[i].1.rule)]) + Kept(slots[i + 1..])
  {
    assert slots[i..][1..] == slots[i + 1..];
  }

  lemma {:induction false} KeptLift(m: OMap<nat, Rule>)
    ensures Kept(Lift(m)) == m
  {
    if m != [] {
      KeptLift(m[1..]);
    }
  }

  /** Blanking the slot of `k` and then diffing out the blank is removing
      the key `k`. */
  lemma {:induction false} BlankThenDiff(m: OMap<nat, Rule>, k: nat)
    requires UniqueKeys(m)
    ensures Kept(Put(Lift(m), k, Blank)) == RemoveKey(m, k)
  {
    if m == [] {
    } else {
      var l := Lift(m);
      assert l[0] == (m[0].0, Filled(m[0].1)) && l[1..] == Lift(m[1..]);
      KeysAt(m);
      KeysAt(m[1..]);
      if m[0].0 == k {
        assert k !in Keys(m[1..]);
        KeptLift(m[1..]);
        RemoveAbsent(m[1..], k);
      } else {
        BlankThenDiff(m[1..], k);
      }
    }
  }

  /** The `array_diff` loop: keep every filled slot, in order. */
  method ArrayDiffBlank(slots: OMap<nat, Slot>) returns (kept: OMap<nat, Rule>)
    ensures kept == Kept(slots)
  {
    kept := [];
    var i := 0;
    while i < |slots|
      invariant 0 <= i <= |slots|
      invariant Kept(slots) == kept + Kept(slots[i..])
    {
      KeptAt(slots, i);
      if !slots[i].1.Blank? {
        kept := kept + [(slots[i].0, slots[i].1.rule)];
      }
      i := i + 1;
    }
    assert slots[|slots|..] == [];
  }

  // ---------------------------------------------------------------------
  // The spam rule pair

  /** A rule that makes the bootstrap skip: (subject, spam_subject) or
      (X-Spam-Flag, Yes). */
  predicate IsSpamRule(r: Rule, spamSubject: string)
  {
    || (r.searchstring == spamSubject && r.whatfilter == "subject")
    || (r.searchstring == "Yes" && r.whatfilter == "X-Spam-Flag")
  }

  predicate HasSpamRule(m: OMap<nat, Rule>, spamSubject: string)
  {
    exists i :: 0 <= i < |m| && IsSpamRule(m[i].1, spamSubject)
  }

  function SubjectRule(spamSubject: string, junk: string): Rule
  {
    Rule("subject", spamSubject, "INBOX", junk, "all", None, None)
  }

  function FlagRule(junk: string): Rule
  {
    Rule("X-Spam-Flag", "Yes", "INBOX", junk, "all", None, None)
  }

  /** The stored list after the bootstrap: unchanged when a spam rule is
      present or there is no junk folder; otherwise the subject rule and
      then the flag rule, each appended only if its own save succeeds. */
  function Bootstrap(m: OMap<nat, Rule>, spamSubject: string, junk: Option<string>, firstOk: bool, secondOk: bool): OMap<nat, Rule>
  {
    if HasSpamRule(m, spamSubject) || junk.None? || junk.value == "" then m
    else
      var m1 := if firstOk then Append(m, SubjectRule(spamSubject, junk.value)) else m;
      if secondOk then Append(m1, FlagRule(junk.value)) else m1
  }

  /** When both saves succeed on a list without a spam rule, exactly two
      rules are appended, INBOX to the junk folder with scope "all": the
      subject rule, then the flag rule. */
  lemma BootstrapAppendsPair(m: OMap<nat, Rule>, spamSubject: string, junk: string)
    requires UniqueKeys(m) && !HasSpamRule(m, spamSubject) && junk != ""
    ensures var b := Bootstrap(m, spamSubject, Some(junk), true, true);
      && UniqueKeys(b)
      && |b| == |m| + 2 && b[..|m|] == m
      && b[|m|].1 == SubjectRule(spamSubject, junk)
      && b[|m| + 1].1 == FlagRule(junk)
  {
    var m1 := Append(m, SubjectRule(spamSubject, junk));
    AppendFresh(m, SubjectRule(spamSubject, junk));
    AppendFresh(m1, FlagRule(junk));
    var b := Append(m1, FlagRule(junk));
    assert b[..|m|] == m1[..|m|];
  }

  /** After a bootstrap that stored a rule, or found one, a second
      bootstrap changes nothing, whatever its junk folder and save results. */
  lemma BootstrapIdempotent(m: OMap<nat, Rule>, spamSubject: string, junk: Option<string>, firstOk: bool, secondOk: bool,
                            junk': Option<string>, firstOk': bool, secondOk': bool)
    requires HasSpamRule(m, spamSubject) || (junk.Some? && junk.value != "" && (firstOk || secondOk))
    ensures var b := Bootstrap(m, spamSubject, junk, firstOk, secondOk);
      HasSpamRule(b, spamSubject) && Bootstrap(b, spamSubject, junk', firstOk', secondOk') == b
  {
    var b := Bootstrap(m, spamSubject, junk, firstOk, secondOk);
    if !HasSpamRule(m, spamSubject) {
      var m1 := if firstOk then Append(m, SubjectRule(spamSubject, junk.value)) else m;
      if secondOk {
        assert b[|m1|].1 == FlagRule(junk.value);
        assert IsSpamRule(b[|m1|].1, spamSubject);
      } else {
        assert b[|m|].1 == SubjectRule(spamSubject, junk.value);
        assert IsSpamRule(b[|m|].1, spamSubject);
      }
    }
  }

  /** The `found` loop of filters_addMoveSpamRule (filters.php:509-517). */
  method SpamRulePresent(filters: OMap<nat, Rule>, spamSubject: string) returns (found: bool)
    ensures found == HasSpamRule(filters, spamSubject)
  {
    found := false;
    var i := 0;
    while i < |filters|
      invariant 0 <= i <= |filters|
      invariant found <==> exists j :: 0 <= j < i && IsSpamRule(filters[j].1, spamSubject)
    {
      var saved := filters[i].1;
      if saved.searchstring == spamSubject && saved.whatfilter == "subject" {
        found := true;
      }
      if saved.searchstring == "Yes" && saved.whatfilter == "X-Spam-Flag" {
        found := true;
      }
      i := i + 1;
    }
  }

  // ---------------------------------------------------------------------
  // The preferences object

  /** The user's stored filter rules, keyed as the preferences array keys
      them. */
  class Prefs {
    var filters: OMap<nat, Rule>

    ghost predicate Valid()
      reads this
    {
      UniqueKeys(filters)
    }

    constructor (filters: OMap<nat, Rule>)
      requires UniqueKeys(filters)
      ensures Valid() && this.filters == filters
    {
      this.filters := filters;
    }

    /** filters_save: a trimmed-empty search text is refused and nothing
        changes; otherwise the new rule is appended and kept if the
        preferences save succeeds. */
    method Save(req: SaveRequest, saveOk: bool) returns (outcome: SaveOutcome)
      requires Valid()
      modifies this
      ensures Valid()
      ensures outcome == NoSearchString <==> NewRule(req).None?
      ensures outcome != NoSearchString ==> (outcome == Saved <==> saveOk)
      ensures filters == if outcome == Saved then Append(old(filters), NewRule(req).value) else old(filters)
    {
      var searchstring := Trim(req.searchstring);
      var srcfolder := Trim(req.srcfolders);
      var destfolder := Trim(req.folders);
      var whatfilter := Trim(req.whatfilter);
      var messages := Trim(req.messages);
      var filterpriority := Trim(req.checkbox);
      var markread := Trim(req.markread);
      if searchstring == "" {
        outcome := NoSearchString;
      } else {
        var rule := Rule(whatfilter, HtmlSpecialChars(AddSlashes(searchstring)), AddSlashes(srcfolder),
                         AddSlashes(destfolder), messages, Some(filterpriority), Some(markread));
        StoreAppended(rule, saveOk);
        outcome := if saveOk then Saved else NotSaved;
      }
    }

    /** filters_delete: blank the slot of the requested key, drop the blank
        with array_diff, and keep the result if the preferences save
        succeeds. */
    method Delete(filterId: Option<nat>, saveOk: bool) returns (outcome: DeleteOutcome)
      requires Valid()
      modifies this
      ensures Valid()
      ensures outcome == NoRequest <==> filterId.None?
      ensures filterId.Some? ==> (outcome == Deleted <==> saveOk)
      ensures filters == if outcome == Deleted then RemoveKey(old(filters), filterId.value) else old(filters)
    {
      if filterId.None? {
        return NoRequest;
      }
      var id := filterId.value;
      var slots := Put(Lift(filters), id, Blank);
      var kept := ArrayDiffBlank(slots);
      BlankThenDiff(filters, id);
      RemoveKeyUnique(filters, id);
      if saveOk {
        filters := kept;
        outcome := Deleted;
      } else {
        outcome := NotDeleted;
      }
    }

    /** filters_addMoveSpamRule: look for a spam rule; when there is none
        and a junk folder is configured, append the subject rule and then
        the flag rule, each kept if its own save succeeds. */
    method AddMoveSpamRule(spamSubject: string, junk: Option<string>, firstOk: bool, secondOk: bool)
      requires Valid()
      modifies this
      ensures Valid()
      ensures filters == Bootstrap(old(filters), spamSubject, junk, firstOk, secondOk)
    {
      var found := SpamRulePresent(filters, spamSubject);
      if !found && junk.Some? && junk.value != "" {
        StoreAppended(SubjectRule(spamSubject, junk.value), firstOk);
        StoreAppended(FlagRule(junk.value), secondOk);
      }
    }

    /** Append a rule to the preferences' filter list and save: the stored
        list changes only when the save succeeds. */
    method StoreAppended(rule: Rule, saveOk: bool)
      requires Valid()
      modifies this
      ensures Valid()
      ensures filters == if saveOk then Append(old(filters), rule) else old(filters)
    {
      var prefs := filters + [(NextKey(filters), rule)];
      AppendFresh(filters, rule);
      if saveOk {
        filters := prefs;
      }
    }
  }

  lemma {:induction false} RemoveKeyUnique(m: OMap<nat, Rule>, k: nat)
    requires UniqueKeys(m)
    ensures UniqueKeys(RemoveKey(m, k))
  {
    if k in Keys(m) {
      KeysAt(m);
      var p :| 0 <= p < |m| && m[p].0 == k;
      RemoveKeyAt(m, p);
      var r := m[..p] + m[p + 1..];
      forall i, j | 0 <= i < j < |r| ensures r[i].0 != r[j].0 {
        var i' := if i < p then i else i + 1;
        var j' := if j < p then j else j + 1;
        assert r[i] == m[i'] && r[j] == m[j'];
      }
    } else {
      RemoveAbsent(m, k);
    }
  }
}

=== FILE: wrappers.dfy ===
/** Optional values: PHP's `null`/unset versus a present value. */
module Wrappers {

  datatype Option<+T> = None | Some(value: T) {

    /** The value, or `default` when absent (PHP's `$x ?? default`). */
    function GetOr(default: T): T {
      match this
      case Some(v) => v
      case None => default
    }
  }
}
